=== FILE: README.md ===
# WeatherApp core in Dafny

A model of the logic underneath the Android WeatherApp (Kotlin, Jetpack
Compose). The app shows the current weather and a seven-day forecast for a
chosen place. It keeps a list of favourite places and works offline from
cached copies. The model covers:

- **Storage.** SharedPreferences and the files directory are two maps in
  `Storage.Store`. Save/load pairs are stated as round trips, and "nothing
  else changes" is stated as `FilesAgreeExcept`.
- **The favourites file.** One `name,lat,lon,country[,state]` line per
  place (`FavouritesCodec`). Coordinates go through Kotlin's
  `Float.toString` / `toFloatOrNull`, which are modelled as decimal text of
  a fixed-point number (`Decimal`). For places whose name, country and
  state hold no comma or line break and have no whitespace at either end,
  the decoder reads back exactly what the encoder wrote. Other places do not
  survive the round trip: a name " A" comes back as "A".
- **Remote calls** (`Api`). An endpoint is an input that gives an outcome
  (returned or threw) for the coordinates asked about. The adapters turn a
  throw into "no value". A refresh fetches the viewed place and then each
  favourite, and these are separate inputs, so the viewed place and a
  favourite at the same coordinates can have different outcomes.
- **Favourites list actions** (`CitiesSection`): add (with its
  blank / duplicate / offline / not-found exits), remove, choose, list and
  reload.
- **Refreshing** (`WeatherScreen.UpdateWeather`,
  `WeatherForecast.UpdateWeatherForecast`):
  - online: fetch the current place; reverse-geocode it if it is not a
    favourite; fetch every favourite; cache the list;
  - offline: read the cache and pick the entry whose coordinates match.
- **Forecast days** (`WeekDaysForecast`): keep the entries at the forecast
  hour, group them by date, show the first entry of at most seven days.
- **The auto-refresh timer** (`WeatherViewModel`): it counts only the time
  while the screen is active.

A coordinate is an `int` number of 10^-7 degrees (`Decimal.Fixed`).
Rounding to four decimals (`Coords.Round4`) is HALF_UP on that grid.

## Model

| member | source | states |
|---|---|---|
| Storage.SavePreferenceJson | app/src/main/java/com/example/weatherapp/utils/Utils.kt:21-29 | after saving a place under a key, loading that key gives the place back; every other key and every file is unchanged |
| Storage.LoadPreferenceJson | app/src/main/java/com/example/weatherapp/utils/Utils.kt:32-44 | null exactly when nothing was ever saved under the key; otherwise the stored place |
| Storage.SaveFavoriteWeatherList | app/src/main/java/com/example/weatherapp/utils/Utils.kt:216-226 | the saved weather list loads back unchanged from that file; no other file or preference changes |
| Storage.LoadFavoriteWeatherList | app/src/main/java/com/example/weatherapp/utils/Utils.kt:231-244 | null for a missing file or one holding another kind of object (the caught exception); otherwise the stored list |
| Storage.SaveWeatherForecastData | app/src/main/java/com/example/weatherapp/Utils.kt:60-76 | the file then holds one forecast object, which the forecast-list loader reports as absent; no other file or preference changes |
| Storage.SaveFavoriteForecastList | app/src/main/java/com/example/weatherapp/utils/Utils.kt:250-263 | the saved forecast lists load back unchanged from that file; no other file or preference changes |
| Storage.LoadFavoriteForecastList | app/src/main/java/com/example/weatherapp/utils/Utils.kt:267-281 | null for a missing file or one holding another kind of object; otherwise the stored lists |
| Decimal.ParseFormat | app/src/main/java/com/example/weatherapp/utils/Utils.kt:159-184 | parsing the text written for a coordinate gives back the same coordinate |
| Decimal.ParseUnsignedText | app/src/main/java/com/example/weatherapp/utils/Utils.kt:180-184 | reading back a written digit string gives the same natural number |
| Decimal.FormatNoControl | app/src/main/java/com/example/weatherapp/utils/Utils.kt:180-184 | a written number has no surrounding whitespace or control characters for the reader's trim to remove |
| FavouritesCodec.ReadFields | app/src/main/java/com/example/weatherapp/utils/Utils.kt:176-197 | a line is accepted exactly when it has at least four fields and both coordinates parse; name, country and state are trimmed, and the state is read only when there are more than four fields |
| FavouritesCodec.SaveFavouriteCities | app/src/main/java/com/example/weatherapp/utils/Utils.kt:154-168 | for places whose texts hold no comma, line break or edge whitespace, loading gives back the saved list; only the favourites file changes |
| FavouritesCodec.LoadFavouriteCities | app/src/main/java/com/example/weatherapp/utils/Utils.kt:171-198 | an empty list when the file does not exist |
| FavouritesCodec.DecodeEncode | app/src/main/java/com/example/weatherapp/utils/Utils.kt:154-198 | for places whose texts hold no comma, line break or edge whitespace, decoding the written file text gives back the list of places, in order |
| FavouritesCodec.ParseEncode | app/src/main/java/com/example/weatherapp/utils/Utils.kt:159-184 | reading one written line gives back that place |
| FavouritesCodec.DecodedAreTrimmed | app/src/main/java/com/example/weatherapp/utils/Utils.kt:180-190 | every loaded name, country and state is trimmed |
| FavouritesCodec.FavouritesUnaffected | app/src/main/java/com/example/weatherapp/utils/Utils.kt:171-198 | writing any other file leaves the loaded favourites unchanged |
| Api.FetchWeatherData | app/src/main/java/com/example/weatherapp/utils/Utils.kt:104-120 | the response when the call returned; null when it threw, 404 or not |
| Api.FetchWeatherForecast | app/src/main/java/com/example/weatherapp/utils/WeatherApiClient.kt:25-33 | the forecast when the call returned; null when it threw |
| Api.SearchCitiesByName | app/src/main/java/com/example/weatherapp/utils/Utils.kt:304-314 | the places found, or an empty list when the call threw |
| Api.CheckIfCityExists | app/src/main/java/com/example/weatherapp/utils/Utils.kt:318-343 | a place exactly when the call returned at least one hit; it copies the first hit's fields |
| FavouriteWeather.GetWeatherForFavorites | app/src/main/java/com/example/weatherapp/utils/Utils.kt:201-212 | one response per favourite whose call returned, in favourite order; a response is in the list iff some favourite's call returned it |
| FavouriteWeather.GetWeatherForecastForFavorites | app/src/main/java/com/example/weatherapp/utils/Utils.kt:284-297 | the same for forecasts |
| CitiesSection.AddFavourite | app/src/main/java/com/example/weatherapp/utils/CitiesSection.kt:136-176 | the five exits: blank name, coordinates already a favourite, offline, reverse geocoding found nothing (list and store unchanged), or the found place appended and saved |
| CitiesSection.RemoveFirst | app/src/main/java/com/example/weatherapp/utils/CitiesSection.kt:88-90 | removes the first occurrence of the place and keeps the rest in order; unchanged when it is absent |
| CitiesSection.RemoveFavourite | app/src/main/java/com/example/weatherapp/utils/CitiesSection.kt:88-93 | the first occurrence is spliced out, the rest keep their order, and the new list is what the favourites file then holds |
| CitiesSection.ChooseFavourite | app/src/main/java/com/example/weatherapp/utils/CitiesSection.kt:67-71 | the selection takes the favourite's name and its coordinates, so any list that holds the favourite has a place at the selected coordinates |
| CitiesSection.ChosenFavouriteIsDuplicate | app/src/main/java/com/example/weatherapp/utils/CitiesSection.kt:67-71 | choosing a favourite selects its name and coordinates, so adding it again is refused as a duplicate |
| CitiesSection.AddFavouriteCanDuplicate | app/src/main/java/com/example/weatherapp/utils/CitiesSection.kt:142-176 | as written, when the geocoder names a place already in a list without duplicates, the star button appends it again |
| CitiesSection.AddFavouriteChecked | app/src/main/java/com/example/weatherapp/utils/CitiesSection.kt:142-176 | the corrected add: it adds exactly when the as-written add would and the geocoded place is not yet a favourite, refuses that case as a duplicate, otherwise behaves as written, and keeps a list free of duplicates |
| CitiesSection.ToggleFavouritesList | app/src/main/java/com/example/weatherapp/utils/CitiesSection.kt:196-198 | the list is reloaded from storage and its visibility flips |
| CitiesSection.ToggleReload | app/src/main/java/com/example/weatherapp/utils/CitiesSection.kt:210-211 | the reload flag flips |
| Coords.Round4 | app/src/main/java/com/example/weatherapp/pages/WeatherScreen.kt:361-366 | the nearest multiple of 10^-4 degrees, with halves rounded away from zero |
| Coords.Round4Negate | app/src/main/java/com/example/weatherapp/pages/WeatherScreen.kt:361-366 | rounding is symmetric about zero |
| Coords.Round4Idempotent | app/src/main/java/com/example/weatherapp/pages/WeatherScreen.kt:374-381 | rounding a rounded coordinate changes nothing |
| Coords.SameAt4Close | app/src/main/java/com/example/weatherapp/pages/WeatherScreen.kt:374-381 | two coordinates equal after rounding are less than 10^-4 apart |
| WeatherScreen.InitialSelection | app/src/main/java/com/example/weatherapp/pages/WeatherScreen.kt:70-95 | the last viewed place's name and coordinates, or an empty name at 0,0 when none is stored |
| WeatherScreen.InitialState | app/src/main/java/com/example/weatherapp/pages/WeatherScreen.kt:67-95 | the screen opens with no weather, no error, not loading, an empty weather list, the favourites loaded from the file, and the initial selection |
| Reconcile.WorkingList | app/src/main/java/com/example/weatherapp/pages/WeatherScreen.kt:324-342 | reverse geocoding runs exactly when no favourite has the viewed coordinates; its place is appended exactly when it found one; otherwise the list is the favourites unchanged (pages/WeatherForecast.kt:434-450 does the same) |
| Reconcile.AddAgreesWithRefresh | app/src/main/java/com/example/weatherapp/utils/CitiesSection.kt:142-176 | with a name and a connection, the star button adds a place exactly when a refresh's working list gains one (pages/WeatherScreen.kt:324-342), and it is the same place appended to the same list |
| WeatherScreen.UpdateWeatherOnline | app/src/main/java/com/example/weatherapp/pages/WeatherScreen.kt:308-342 | an error when the current call threw, else its response; the favourite list in use gets the reverse-geocoded place only when the current coordinates are not a favourite; the weather list is cached; only the last-city key and that cache file change |
| WeatherScreen.UpdateWeatherOffline | app/src/main/java/com/example/weatherapp/pages/WeatherScreen.kt:345-383 | no calls and no files written; the list is the cached one; when a cached entry matches the current coordinates the first such entry is shown and the first favourite there (if any) becomes the last viewed city, otherwise the shown weather and the store stay as they were |
| WeatherScreen.UpdateWeather | app/src/main/java/com/example/weatherapp/pages/WeatherScreen.kt:289-384 | nothing happens for a blank name; online, the first call is for the current coordinates; offline, no calls are made; the favourites file never changes |
| WeatherScreen.OfflineShowsCachedEntry | app/src/main/java/com/example/weatherapp/pages/WeatherScreen.kt:345-383 | offline, a cached entry at the current coordinates is what is shown |
| WeatherScreen.OnlineViewedPlaceIsRemembered | app/src/main/java/com/example/weatherapp/pages/WeatherScreen.kt:324-342 | online with no favourites, the geocoded place is stored as the last viewed city (so the next start selects it), its weather is cached, and the favourites file is untouched |
| WeatherScreen.RefreshingFavouriteKeepsLastViewed | app/src/main/java/com/example/weatherapp/pages/WeatherScreen.kt:324-342 | refreshing at a favourite's coordinates leaves the last-city key unchanged, makes no reverse-geocoding call (only the current place and then each favourite are fetched), and shows the favourites' weather |
| WeatherForecast.UpdateForecastOnline | app/src/main/java/com/example/weatherapp/pages/WeatherForecast.kt:418-456 | as for the weather screen, with the forecast list cached in the last-city forecast file |
| WeatherForecast.UpdateForecastOffline | app/src/main/java/com/example/weatherapp/pages/WeatherForecast.kt:457-483 | no calls and nothing written; the first cached forecast at the current coordinates is shown under the current name, otherwise the shown forecast stays as it was |
| WeatherForecast.UpdateWeatherForecast | app/src/main/java/com/example/weatherapp/pages/WeatherForecast.kt:397-485 | nothing for a blank name; online, the first call is for the current coordinates; offline, the store is unchanged |
| WeatherForecast.InitialSelectionAsWritten | app/src/main/java/com/example/weatherapp/pages/WeatherForecast.kt:79-98 | the stored name with coordinates 0,0, as the source initialises them |
| WeatherForecast.InitialStateAsWritten | app/src/main/java/com/example/weatherapp/pages/WeatherForecast.kt:79-98 | the screen as the source opens it: no forecast, no error, not loading, an empty list, no place shown, the favourites loaded from the file, the last city's name at 0,0 |
| WeatherForecast.AsWrittenShowsWrongPlace | app/src/main/java/com/example/weatherapp/pages/WeatherForecast.kt:97-98 | from the screen as the source opens it (favourites loaded, as-written selection), the first refresh fetches the forecast for 0,0 and shows it under the last city's name |
| WeatherForecast.InitialSelection | app/src/main/java/com/example/weatherapp/pages/WeatherForecast.kt:79-98 | the last viewed place's name and coordinates |
| WeatherForecast.InitialState | app/src/main/java/com/example/weatherapp/pages/WeatherForecast.kt:79-98 | the screen opens with no forecast, no error, not loading, an empty list, no place shown, the favourites loaded from the file, and the corrected initial selection |
| WeatherForecast.InitialRefreshFetchesLastViewed | app/src/main/java/com/example/weatherapp/pages/WeatherForecast.kt:79-98 | with the corrected selection, the first refresh fetches the last viewed place's own coordinates |
| WeekDaysForecast.AtHour | app/src/main/java/com/example/weatherapp/pages/WeatherForecast.kt:270-271 | the kept entries are exactly those whose time text contains the forecast hour (order and count: `WeekDaysForecast.AtHourAppend`) |
| WeekDaysForecast.AtHourAppend | app/src/main/java/com/example/weatherapp/pages/WeatherForecast.kt:270-271 | the filter works entry by entry: filtering a concatenation concatenates the filtered parts, and a single entry is kept exactly when its time contains the hour, so kept entries keep their input order and count |
| WeekDaysForecast.GroupByDateMatchesReference | app/src/main/java/com/example/weatherapp/pages/WeatherForecast.kt:270-272 | grouping gives one group per distinct date, in first-appearance order, each holding that date's entries in order |
| WeekDaysForecast.DatesFacts | app/src/main/java/com/example/weatherapp/pages/WeatherForecast.kt:272 | the group dates are distinct and are exactly the dates that occur |
| WeekDaysForecast.SelectedDates | app/src/main/java/com/example/weatherapp/pages/WeatherForecast.kt:270-272 | defined when every kept entry has a date prefix; then the first seven groups, each non-empty |
| WeekDaysForecast.ShownDays | app/src/main/java/com/example/weatherapp/pages/WeatherForecast.kt:270-300 | one shown day for each of the first min(n, 7) dates in order of first appearance; each pairs the date with the first entry of that date at the forecast hour |
| WeekDaysForecast.SevenOfTen | app/src/main/java/com/example/weatherapp/pages/WeatherForecast.kt:272 | with ten dates, exactly seven days are shown |
| WeatherViewModel.Start | app/src/main/java/com/example/weatherapp/WeatherViewModel.kt:19-21 | the timer runs from now and keeps the time already counted |
| WeatherViewModel.Pause | app/src/main/java/com/example/weatherapp/WeatherViewModel.kt:37-41 | the counted time grows by the time since the last resume, and the timer stops |
| WeatherViewModel.Check | app/src/main/java/com/example/weatherapp/WeatherViewModel.kt:23-31 | refresh exactly when the counted time reaches the interval (and reset it), else wait exactly for the remainder |
| WeatherViewModel.NoEarlyRefresh | app/src/main/java/com/example/weatherapp/WeatherViewModel.kt:23-31 | a check before the interval's worth of active time has passed never refreshes |
| WeatherViewModel.DelayThenRefresh | app/src/main/java/com/example/weatherapp/WeatherViewModel.kt:23-31 | after waiting the returned delay, the next check refreshes |
| WeatherViewModel.RunCountsActiveSpans | app/src/main/java/com/example/weatherapp/WeatherViewModel.kt:11-41 | over alternating start/pause events, the counted time is the sum of the active spans |
| WeatherViewModel.RefreshCountsOnlyActiveTime | app/src/main/java/com/example/weatherapp/WeatherViewModel.kt:11-41 | a refresh happens exactly when the active spans plus the current span reach the interval |
| WeatherViewModel.PauseThenResume | app/src/main/java/com/example/weatherapp/WeatherViewModel.kt:11-41 | with a 10000 ms interval, 4000 ms active and then a pause of any length, the refresh comes exactly 6000 ms after the restart |
| WeatherViewModel.DoublePauseCountsTwice | app/src/main/java/com/example/weatherapp/WeatherViewModel.kt:37-41 | pausing twice without a start counts the span since the last resume twice |

## Left out

- Compose UI, Toast messages, navigation and the tablet layout are not modelled. A Toast appears only as the outcome tag of an action.
- The Retrofit transport is not modelled. Each endpoint is an input from coordinates to returned-or-threw; the fetch for the viewed place and the favourites' fetches are separate inputs. `isNetworkConnectionAvailable` is a boolean input.
- Gson and Java object streams are not modelled: a file holds the typed value that was written.
- The try/catch blocks around saves are not modelled, and neither is printStackTrace. A save always succeeds. A load that catches an exception reports "absent".
- Coroutines are not modelled: no concurrency, no cancellation, no interleaving of refreshes. The `catch (e: Exception)` blocks would also swallow a CancellationException; the model does not show that.
- Float is modelled as an exact fixed-point number with a 10^-7 step. Float rounding, and precision lost on conversion, are not modelled.
- FavouriteWeather.GetWeatherForFavorites: each favourite's outcome depends only on its coordinates, so two favourites at the same coordinates get the same outcome within one refresh, whereas in the source they are separate requests that could differ. The same holds for GetWeatherForecastForFavorites.
- Long is an unbounded int: timer arithmetic does not overflow.
- Decimal.Format: writes plain decimal text only. `Float.toString` writes scientific notation (such as "5.0E-4") for magnitudes below 10^-3 or of 10^7 and above; that form is not modelled.
- Decimal.Parse: reads plain decimals with at most seven fractional digits. `toFloatOrNull` also accepts exponents, f/F/d/D suffixes, NaN, Infinity, hexadecimal and longer fractions; those inputs are reported as unreadable here.
- FavouritesCodec.ReadFields: inherits the Decimal.Parse limits, so a line whose coordinates use those other forms is dropped here, whereas the source would keep it.
- FavouritesCodec.SaveFavouriteCities: the round trip is stated for coordinates in the model's fixed-point form, written as plain decimals (inherits the Decimal.Format limit).
- FavouritesCodec.LoadFavouriteCities: inherits the Decimal.Parse limit on which coordinate texts are read.
- Storage.LoadPreferenceJson: preferences hold only places. `loadPreferenceJson` has no try/catch, so a non-place value under the key would make Gson throw out of the caller. The source stores only places under that key, and that case is not modelled.
- `savePreferenceString` / `loadPreferenceString` and the refresh-interval setting are not modelled. The refresh interval is an input of `WeatherViewModel.Check`.
- Date and time formatting (`getDayName`, `dateWithoutYear`, `formatTime`) and the unit conversions are not modelled. They only affect display.
- Resource strings (the forecast hour, preference keys, file names) are stand-in constants.
- pages/WeatherForecast.kt:64 imports `saveWeatherForecastData` from the utils package, but utils/Utils.kt does not define it. The function of that name in the older root-package Utils.kt:60-76 stands in for it. The rest of the root-package files is not modelled.
- Two places count as the same when their coordinates agree after rounding to four decimals (`Coords.SamePlace`). This does not mean "less than 0.00005 apart": `Coords.CloseButApart` gives two coordinates 10^-7 apart that round differently. The model follows the code.
- `groupBy` keeps the first-appearance order of dates. Days are shown in that order, not sorted, because the code does not sort.

## Findings

| source | as written | input that shows it | evidently intended | confidence | as-written member | corrected member |
|---|---|---|---|---|---|---|
| app/src/main/java/com/example/weatherapp/pages/WeatherForecast.kt:97-98 | the forecast screen starts with latitude and longitude 0.0f, whatever place was last viewed | a last viewed place "Oslo" at 59.91, 10.75: the first refresh fetches the forecast for 0,0 and shows it under "Oslo" | start from the last viewed place's own coordinates, as the weather screen does (pages/WeatherScreen.kt:94-95) | not executed | WeatherForecast.AsWrittenShowsWrongPlace | WeatherForecast.InitialRefreshFetchesLastViewed |
| app/src/main/java/com/example/weatherapp/utils/CitiesSection.kt:142-176 | the duplicate test compares the typed coordinates, but the list gets the reverse-geocoded place, whose coordinates differ | favourites [P at the geocoder's coordinates] and typed coordinates near P that reverse-geocode to P: P is appended a second time | refuse a geocoded place already in the list | not executed | CitiesSection.AddFavouriteCanDuplicate | CitiesSection.AddFavouriteChecked |

=== FILE: api.dfy ===
/** The weather service's data and the adapters that turn its failures into
    absent values. The transport itself is not modelled: each remote call is
    an input saying what the call returned or that it threw. */
module Api {
  import opened Wrappers
  import opened Decimal

  datatype Coord = Coord(lon: Fixed, lat: Fixed)
  datatype Main = Main(temp: Fixed, feelsLike: Fixed, humidity: Fixed, pressure: int)
  datatype Weather = Weather(description: string, icon: string)
  datatype Wind = Wind(speed: Fixed, deg: int)
  datatype Sys = Sys(sunrise: int, sunset: int)

  /** Current conditions for one place. */
  datatype WeatherResponse = WeatherResponse(
    name: string, main: Main, coord: Coord, visibility: int, wind: Wind,
    weather: seq<Weather>, dt: int, sys: Sys)

  datatype City = City(name: string, coord: Coord, country: string, timezone: int,
                       sunrise: int, sunset: int)

  /** One three-hourly forecast entry; `dtTxt` is "yyyy-MM-dd HH:mm:ss". */
  datatype ForecastWeather = ForecastWeather(dt: int, main: Main, weather: seq<Weather>, dtTxt: string)

  /** A multi-day forecast for one place. */
  datatype WeatherForecastList = WeatherForecastList(list: seq<ForecastWeather>, city: City)

  /** A named place, as geocoding returns it and as favourites store it. */
  datatype GeoCity = GeoCity(name: string, lat: Fixed, lon: Fixed, country: string, state: Option<string>)

  /** What a remote call did: returned a value, or threw (HTTP error,
      transport failure, malformed body). */
  datatype ApiOutcome<T> = Returned(value: T) | Threw(message: string)

  /** `fetchWeatherData`: the response, or None whenever the call threw (the
      source tests the message for "HTTP 404", but both of its branches
      return null). */
  function FetchWeatherData(call: ApiOutcome<WeatherResponse>): (r: Option<WeatherResponse>)
    ensures r.Some? <==> call.Returned?
    ensures call.Returned? ==> r.value == call.value
  {
    match call
    case Returned(w) => Some(w)
    case Threw(_) => None
  }

  /** `fetchWeatherForecast`: the forecast, or None whenever the call threw. */
  function FetchWeatherForecast(call: ApiOutcome<WeatherForecastList>): (r: Option<WeatherForecastList>)
    ensures r.Some? <==> call.Returned?
    ensures call.Returned? ==> r.value == call.value
  {
    match call
    case Returned(f) => Some(f)
    case Threw(_) => None
  }

  /** `searchCitiesByName`: the places found (the call asks for at most ten),
      or no places when the call threw. */
  function SearchCitiesByName(call: ApiOutcome<seq<GeoCity>>): (r: seq<GeoCity>)
    ensures call.Threw? ==> r == []
    ensures call.Returned? ==> r == call.value
  {
    match call
    case Returned(cities) => cities
    case Threw(_) => []
  }

  /** `checkIfCityExists`: a copy of the first reverse-geocoding hit, or None
      when there is no hit or the call threw. */
  function CheckIfCityExists(call: ApiOutcome<seq<GeoCity>>): (r: Option<GeoCity>)
    ensures r.Some? <==> call.Returned? && |call.value| > 0
    ensures r.Some? ==> var g := call.value[0];
      && r.value.name == g.name && r.value.lat == g.lat && r.value.lon == g.lon
      && r.value.country == g.country && r.value.state == g.state
  {
    match call
    case Returned(hits) =>
      if |hits| > 0 then
        var g := hits[0];
        Some(GeoCity(g.name, g.lat, g.lon, g.country, g.state))
      else None
    case Threw(_) => None
  }
}

=== FILE: cities_section.dfy ===
/** The favourites controls beside the city field: add the selected place,
    remove a place, choose a place, show the list, reload. Toasts are not
    modelled; which refusal happened is the `AddOutcome`. */
module CitiesSection {
  import opened Wrappers
  import opened Text
  import opened Decimal
  import opened Api
  import opened Storage
  import opened FavouritesCodec

  datatype AddOutcome =
    | BlankName
    | AlreadyFavourite
    | NoConnection
    | CityNotFound
    | Added(city: GeoCity)

  datatype AddResult = AddResult(favorites: seq<GeoCity>, store: Store, outcome: AddOutcome)

  /** The source's duplicate test: some favourite has exactly these coordinates. */
  predicate HasCoords(favorites: seq<GeoCity>, lat: Fixed, lon: Fixed) {
    exists i :: 0 <= i < |favorites| && favorites[i].lat == lat && favorites[i].lon == lon
  }

  /** The star button. `reverse` is what reverse geocoding of (lat, lon)
      returned; it is consulted only once the earlier guards pass. */
  function AddFavourite(city: string, lat: Fixed, lon: Fixed, favorites: seq<GeoCity>, st: Store,
                        online: bool, reverse: ApiOutcome<seq<GeoCity>>): (r: AddResult)
    ensures IsBlank(city) ==> r.outcome == BlankName
    ensures !IsBlank(city) && HasCoords(favorites, lat, lon) ==> r.outcome == AlreadyFavourite
    ensures !IsBlank(city) && !HasCoords(favorites, lat, lon) && !online ==> r.outcome == NoConnection
    ensures !IsBlank(city) && !HasCoords(favorites, lat, lon) && online && CheckIfCityExists(reverse).None?
            ==> r.outcome == CityNotFound
    ensures !r.outcome.Added? ==> r.favorites == favorites && r.store == st
    ensures r.outcome.Added? <==>
      !IsBlank(city) && !HasCoords(favorites, lat, lon) && online && CheckIfCityExists(reverse).Some?
    ensures r.outcome.Added? ==>
      && r.outcome.city == CheckIfCityExists(reverse).value
      && r.favorites == favorites + [r.outcome.city]
      && r.store == SaveFavouriteCities(st, r.favorites)
  {
    if IsBlank(city) then AddResult(favorites, st, BlankName)
    else if HasCoords(favorites, lat, lon) then AddResult(favorites, st, AlreadyFavourite)
    else if !online then AddResult(favorites, st, NoConnection)
    else match CheckIfCityExists(reverse)
      case None => AddResult(favorites, st, CityNotFound)
      case Some(found) =>
        var updated := favorites + [found];
        AddResult(updated, SaveFavouriteCities(st, updated), Added(found))
  }

  /** Index of the first entry equal to `item`, or |favorites|. */
  function FirstIndex(favorites: seq<GeoCity>, item: GeoCity): (i: nat)
    ensures i <= |favorites|
    ensures forall j :: 0 <= j < i ==> favorites[j] != item
    ensures i < |favorites| ==> favorites[i] == item
  {
    if |favorites| == 0 then 0
    else if favorites[0] == item then 0
    else 1 + FirstIndex(favorites[1..], item)
  }

  /** `MutableList.remove(element)`: drop the first entry equal to `item` in
      all five fields; a list without it is returned as it was. */
  function RemoveFirst(favorites: seq<GeoCity>, item: GeoCity): (r: seq<GeoCity>)
    ensures item !in favorites ==> r == favorites
    ensures item in favorites ==>
      exists i :: (0 <= i < |favorites| && favorites[i] == item
                   && (forall j :: 0 <= j < i ==> favorites[j] != item)
                   && r == favorites[..i] + favorites[i + 1..])
    ensures multiset(r) == multiset(favorites) - multiset{item}
  {
    var i := FirstIndex(favorites, item);
    if i == |favorites| then favorites
    else
      assert favorites == favorites[..i] + [item] + favorites[i + 1..];
      favorites[..i] + favorites[i + 1..]
  }

  datatype RemoveResult = RemoveResult(favorites: seq<GeoCity>, store: Store)

  /** The delete button of one favourite: remove it and save the list. */
  function RemoveFavourite(favorites: seq<GeoCity>, st: Store, item: GeoCity): (r: RemoveResult)
    ensures item !in favorites ==> r.favorites == favorites
    ensures item in favorites ==>
      exists i :: (0 <= i < |favorites| && favorites[i] == item
                   && (forall j :: 0 <= j < i ==> favorites[j] != item)
                   && r.favorites == favorites[..i] + favorites[i + 1..])
    ensures |r.favorites| == if item in favorites then |favorites| - 1 else |favorites|
    ensures item in favorites ==> multiset(r.favorites)[item] == multiset(favorites)[item] - 1
    ensures forall c :: c != item ==> multiset(r.favorites)[c] == multiset(favorites)[c]
    ensures r.store == SaveFavouriteCities(st, r.favorites)
  {
    var updated := RemoveFirst(favorites, item);
    assert |updated| == |multiset(updated)|;
    RemoveResult(updated, SaveFavouriteCities(st, updated))
  }

  /** What the city field and the selected coordinates hold. */
  datatype Selection = Selection(city: string, lat: Fixed, lon: Fixed)

  /** Tapping a favourite selects its name and coordinates, so whatever list
      holds the place then has a favourite at the selection. */
  function ChooseFavourite(item: GeoCity): (s: Selection)
    ensures s.city == item.name && s.lat == item.lat && s.lon == item.lon
    ensures forall favorites: seq<GeoCity> :: item in favorites ==> HasCoords(favorites, s.lat, s.lon)
  {
    Selection(item.name, item.lat, item.lon)
  }

  /** Choosing a favourite and then pressing the star is refused as a
      duplicate (unless the stored name is blank). */
  lemma ChosenFavouriteIsDuplicate(favorites: seq<GeoCity>, i: nat, st: Store, online: bool,
                                   reverse: ApiOutcome<seq<GeoCity>>)
    requires i < |favorites|
    requires !IsBlank(favorites[i].name)
    ensures var s := ChooseFavourite(favorites[i]);
      var r := AddFavourite(s.city, s.lat, s.lon, favorites, st, online, reverse);
      r.outcome == AlreadyFavourite && r.favorites == favorites && r.store == st
  {
    var s := ChooseFavourite(favorites[i]);
    assert favorites[i].lat == s.lat && favorites[i].lon == s.lon;
  }

  datatype ListState = ListState(favorites: seq<GeoCity>, showFavorites: bool)

  /** The list button: reload favourites from storage and flip visibility. */
  function ToggleFavouritesList(st: Store, showFavorites: bool): (r: ListState)
    ensures r.favorites == LoadFavouriteCities(st)
    ensures r.showFavorites != showFavorites
  {
    ListState(LoadFavouriteCities(st), !showFavorites)
  }

  /** The refresh button flips the reload flag, which re-runs both refreshes. */
  function ToggleReload(reload: bool): (r: bool)
    ensures r != reload
  {
    !reload
  }

  /** No two favourites share exact coordinates. */
  predicate NoDuplicateCoords(favorites: seq<GeoCity>) {
    forall i, j :: 0 <= i < j < |favorites| ==>
      !(favorites[i].lat == favorites[j].lat && favorites[i].lon == favorites[j].lon)
  }

  /** As written, the duplicate guard tests the selected coordinates, but the
      place appended is the geocoder's, whose coordinates may differ: when the
      geocoder names a place that is already a favourite, a list without
      duplicates gains one. */
  lemma AddFavouriteCanDuplicate(city: string, lat: Fixed, lon: Fixed, favorites: seq<GeoCity>,
                                 st: Store, found: GeoCity)
    requires !IsBlank(city) && NoDuplicateCoords(favorites)
    requires found in favorites && !HasCoords(favorites, lat, lon)
    ensures var r := AddFavourite(city, lat, lon, favorites, st, true, Returned([found]));
      r.outcome.Added? && !NoDuplicateCoords(r.favorites)
  {
    var r := AddFavourite(city, lat, lon, favorites, st, true, Returned([found]));
    var i :| 0 <= i < |favorites| && favorites[i] == found;
    assert r.favorites[i] == found && r.favorites[|favorites|] == found;
  }

  /** The add with the guard the warning message promises: the place that
      would be appended must not already be a favourite either. */
  function AddFavouriteChecked(city: string, lat: Fixed, lon: Fixed, favorites: seq<GeoCity>, st: Store,
                               online: bool, reverse: ApiOutcome<seq<GeoCity>>): (r: AddResult)
    ensures NoDuplicateCoords(favorites) ==> NoDuplicateCoords(r.favorites)
    ensures var a := AddFavourite(city, lat, lon, favorites, st, online, reverse);
      r.outcome.Added? <==> a.outcome.Added? && !HasCoords(favorites, a.outcome.city.lat, a.outcome.city.lon)
    ensures var a := AddFavourite(city, lat, lon, favorites, st, online, reverse);
      a.outcome.Added? && HasCoords(favorites, a.outcome.city.lat, a.outcome.city.lon) ==> r.outcome == AlreadyFavourite
    ensures var a := AddFavourite(city, lat, lon, favorites, st, online, reverse);
      !a.outcome.Added? ==> r == a
    ensures !r.outcome.Added? ==> r.favorites == favorites && r.store == st
    ensures r.outcome.Added? ==>
      && AddFavourite(city, lat, lon, favorites, st, online, reverse) == r
      && !HasCoords(favorites, r.outcome.city.lat, r.outcome.city.lon)
  {
    var r := AddFavourite(city, lat, lon, favorites, st, online, reverse);
    if r.outcome.Added? && HasCoords(favorites, r.outcome.city.lat, r.outcome.city.lon) then
      AddResult(favorites, st, AlreadyFavourite)
    else r
  }
}

=== FILE: coords.dfy ===
/** The offline coordinate match: `toBigDecimal().setScale(4, HALF_UP)` on
    both sides, then equality. HALF_UP rounds a tie away from zero. */
module Coords {
  import opened Decimal

  /** Fixed units (10^-7) in one step of the fourth decimal place. */
  const Step: nat := 1000

  /** A coordinate rounded to four decimals, as a count of 10^-4. */
  function Round4(x: Fixed): (q: int)
    ensures x >= 0 ==> q * Step - Step / 2 <= x < q * Step + Step / 2
    ensures x < 0 ==> q * Step - Step / 2 < x <= q * Step + Step / 2
  {
    if x >= 0 then (x + Step / 2) / Step else -((-x + Step / 2) / Step)
  }

  /** The rounding is symmetric about zero, as HALF_UP is. */
  lemma Round4Negate(x: Fixed)
    ensures Round4(-x) == -Round4(x)
  {
  }

  /** A rounded value, written back at full precision. */
  function Rounded(x: Fixed): (y: Fixed)
    ensures y % Step == 0
  {
    Round4(x) * Step
  }

  /** Rounding an already rounded coordinate changes nothing. */
  lemma Round4Idempotent(x: Fixed)
    ensures Rounded(Rounded(x)) == Rounded(x)
  {
    var q := Round4(x);
    if q >= 0 {
      assert (q * Step + Step / 2) / Step == q;
    } else {
      assert (-(q * Step) + Step / 2) / Step == -q;
    }
  }

  /** The offline match on one axis. */
  predicate SameAt4(a: Fixed, b: Fixed) {
    Round4(a) == Round4(b)
  }

  /** The offline match on a (lat, lon) pair. */
  predicate SamePlace(lat1: Fixed, lon1: Fixed, lat2: Fixed, lon2: Fixed) {
    SameAt4(lat1, lat2) && SameAt4(lon1, lon2)
  }

  /** Values matching after rounding lie less than 10^-4 apart, so values
      0.00015 or more apart never match. */
  lemma SameAt4Close(a: Fixed, b: Fixed)
    requires SameAt4(a, b)
    ensures Abs(a - b) < Step
  {
  }

  /** Closeness alone does not give a match: 0.0000499 and 0.00005 lie
      0.0000001 apart and round to 0.0000 and 0.0001. */
  lemma CloseButApart()
    ensures Abs(499 - 500) < Step / 2 && !SameAt4(499, 500)
  {
  }
}

=== FILE: decimal.dfy ===
/** Float values held as fixed-point integers, and their decimal text.

    A `Fixed` is a count of 10^-7: the Float whose shortest decimal form is
    "51.5074" is the Fixed 515074000. Writing models `"${x}"` on a Float and
    reading models Kotlin's `toFloatOrNull()`, restricted to plain decimal
    numerals. */
module Decimal {
  import opened Wrappers

  type Fixed = int

  /** Fractional digits a Fixed carries, and the matching scale. */
  const FracDigits: nat := 7
  const Unit: nat := 10000000

  function Pow10(n: nat): (r: nat)
    ensures r >= 1
  {
    if n == 0 then 1 else 10 * Pow10(n - 1)
  }

  /** `v` with `n` zeros appended: v * 10^n, computed without multiplying
      two unknowns. */
  function Shifted(v: nat, n: nat): (r: nat)
    ensures v == 0 ==> r == 0
  {
    if n == 0 then v else 10 * Shifted(v, n - 1)
  }

  lemma {:induction false} ShiftedIsProduct(v: nat, n: nat)
    ensures Shifted(v, n) == v * Pow10(n)
  {
    if n > 0 {
      ShiftedIsProduct(v, n - 1);
      var p := Pow10(n - 1);
      assert 10 * (v * p) == v * (10 * p);
    }
  }

  predicate IsDigit(c: char) {
    '0' <= c <= '9'
  }

  predicate AllDigits(s: string) {
    forall k :: 0 <= k < |s| ==> IsDigit(s[k])
  }

  lemma AllDigitsAppend(a: string, b: string)
    requires AllDigits(a) && AllDigits(b)
    ensures AllDigits(a + b)
  {
    forall k | 0 <= k < |a + b|
      ensures IsDigit((a + b)[k])
    {
      if k >= |a| {
        assert (a + b)[k] == b[k - |a|];
      }
    }
  }

  /** The value of a digit character (zero for anything else, which never
      reaches it: callers check `AllDigits` first). */
  function DigitValue(c: char): nat {
    if IsDigit(c) then (c as int - '0' as int) as nat else 0
  }

  function DigitChar(d: nat): (c: char)
    requires d < 10
    ensures IsDigit(c) && DigitValue(c) == d
  {
    ('0' as int + d) as char
  }

  /** The value of a run of decimal digits, most significant first. */
  function DigitsValue(s: string): nat {
    if |s| == 0 then 0 else 10 * DigitsValue(s[..|s| - 1]) + DigitValue(s[|s| - 1])
  }

  /** The shortest decimal numeral of a natural number. */
  function NatDigits(n: nat): (s: string)
    ensures |s| >= 1 && AllDigits(s)
    ensures DigitsValue(s) == n
  {
    if n < 10 then [DigitChar(n)]
    else
      var s := NatDigits(n / 10) + [DigitChar(n % 10)];
      assert s[..|s| - 1] == NatDigits(n / 10);
      s
  }

  lemma {:induction false} NatDigitsLength(n: nat, k: nat)
    requires 1 <= k && n < Pow10(k)
    ensures |NatDigits(n)| <= k
  {
    if n >= 10 {
      NatDigitsLength(n / 10, k - 1);
    }
  }

  lemma {:induction false} DigitsValueAppend(a: string, b: string)
    ensures DigitsValue(a + b) == Shifted(DigitsValue(a), |b|) + DigitsValue(b)
    decreases |b|
  {
    if |b| == 0 {
      assert a + b == a;
    } else {
      var b' := b[..|b| - 1];
      var d := DigitValue(b[|b| - 1]);
      assert (a + b)[..|a + b| - 1] == a + b';
      assert (a + b)[|a + b| - 1] == b[|b| - 1];
      DigitsValueAppend(a, b');
    }
  }

  function Zeros(n: nat): (s: string)
    ensures |s| == n && DigitsValue(s) == 0 && AllDigits(s)
    ensures forall k :: 0 <= k < n ==> s[k] == '0'
  {
    if n == 0 then "" else
      var z := Zeros(n - 1);
      var s := z + "0";
      assert s[..|s| - 1] == z;
      assert forall k :: 0 <= k < n - 1 ==> s[k] == z[k];
      s
  }

  /** Drop trailing '0' characters. */
  function StripZeros(s: string): (r: string)
    ensures |r| <= |s| && r == s[..|r|]
    ensures forall k :: |r| <= k < |s| ==> s[k] == '0'
    ensures |r| == 0 || r[|r| - 1] != '0'
  {
    if |s| > 0 && s[|s| - 1] == '0' then StripZeros(s[..|s| - 1]) else s
  }

  /** The fractional digits written for a fraction 0 <= f < Unit: the seven
      digits with trailing zeros dropped, or "0" when the fraction is zero
      (a Float prints as "51.0", never "51."). */
  function FracText(f: nat): (s: string)
    requires f < Unit
    ensures 1 <= |s| <= FracDigits && AllDigits(s)
    ensures Shifted(DigitsValue(s), FracDigits - |s|) == f
  {
    if f == 0 then "0"
    else
      var p := Padded(f);
      var s := StripZeros(p);
      FracTextValue(f);
      assert forall k :: 0 <= k < |s| ==> s[k] == p[k];
      s
  }

  /** The seven-digit form of a fraction, with leading zeros. */
  function Padded(f: nat): (s: string)
    requires f < Unit
    ensures |s| == FracDigits && AllDigits(s) && DigitsValue(s) == f
  {
    var d := NatDigits(f);
    assert Pow10(FracDigits) == Unit;
    NatDigitsLength(f, FracDigits);
    var z := Zeros(FracDigits - |d|);
    DigitsValueAppend(z, d);
    AllDigitsAppend(z, d);
    z + d
  }

  lemma FracTextValue(f: nat)
    requires 0 < f < Unit
    ensures var s := StripZeros(Padded(f));
      1 <= |s| && Shifted(DigitsValue(s), FracDigits - |s|) == f
  {
    var p := Padded(f);
    var s := StripZeros(p);
    var z := Zeros(FracDigits - |s|);
    assert p == s + z;
    DigitsValueAppend(s, z);
  }

  function Abs(x: int): nat {
    if x < 0 then -x else x
  }

  /** The text a coordinate is written as: sign, integer digits, '.', and
      at least one fractional digit. */
  function Format(x: Fixed): (s: string)
    ensures |s| > 0 && (s[0] == '-' || IsDigit(s[0])) && IsDigit(s[|s| - 1])
    ensures forall k :: 0 <= k < |s| ==> NumeralChar(s[k])
  {
    (if x < 0 then "-" else "") + UnsignedText(Abs(x))
  }

  /** The characters a written coordinate is made of. */
  predicate NumeralChar(c: char) {
    c == '-' || c == '.' || IsDigit(c)
  }

  function UnsignedText(n: nat): (s: string)
    ensures |s| > 0 && IsDigit(s[0]) && IsDigit(s[|s| - 1])
    ensures forall k :: 0 <= k < |s| ==> NumeralChar(s[k])
  {
    NatDigits(n / Unit) + "." + FracText(n % Unit)
  }

  /** Characters `toFloatOrNull` skips at either end (Java trims chars <= ' '). */
  predicate IsControlOrSpace(c: char) {
    c <= ' '
  }

  function StripControl(s: string): (r: string)
    ensures |r| <= |s|
  {
    if |s| > 0 && IsControlOrSpace(s[0]) then StripControl(s[1..])
    else if |s| > 0 && IsControlOrSpace(s[|s| - 1]) then StripControl(s[..|s| - 1])
    else s
  }

  /** Value of an unsigned numeral "ddd", "ddd.fff", ".fff" or "ddd.". */
  function ParseUnsigned(s: string): (r: Option<nat>)
    ensures r.Some? ==> |s| > 0
  {
    var i := IndexOfDot(s);
    var whole := s[..i];
    var frac := if i < |s| then s[i + 1..] else "";
    if AllDigits(whole) && AllDigits(frac) && |whole| + |frac| > 0 && |frac| <= FracDigits then
      Some(Shifted(DigitsValue(whole), FracDigits) + Shifted(DigitsValue(frac), FracDigits - |frac|))
    else None
  }

  function IndexOfDot(s: string): (i: nat)
    ensures i <= |s|
    ensures forall k :: 0 <= k < i ==> s[k] != '.'
    ensures i < |s| ==> s[i] == '.'
  {
    if |s| == 0 then 0
    else if s[0] == '.' then 0
    else 1 + IndexOfDot(s[1..])
  }

  /** `toFloatOrNull()` on plain decimal text: None for anything that is not
      an optionally signed decimal numeral. */
  function Parse(text: string): (r: Option<Fixed>)
    ensures |text| == 0 ==> r.None?
  {
    var s := StripControl(text);
    if |s| > 0 && (s[0] == '-' || s[0] == '+') then
      match ParseUnsigned(s[1..])
      case Some(v) => var signed: Fixed := if s[0] == '-' then -(v as int) else v; Some(signed)
      case None => None
    else
      match ParseUnsigned(s)
      case Some(v) => Some(v)
      case None => None
  }

  lemma FormatNoControl(x: Fixed)
    ensures StripControl(Format(x)) == Format(x)
  {
  }

  lemma ShiftedUnit(q: nat)
    ensures Shifted(q, FracDigits) == q * Unit
  {
    ShiftedIsProduct(q, FracDigits);
    assert Pow10(FracDigits) == Unit;
  }

  /** A digit run, a dot and anything after it split back at that dot. */
  lemma SplitAtDot(whole: string, frac: string)
    requires AllDigits(whole)
    ensures var s := whole + "." + frac;
      IndexOfDot(s) == |whole| && s[..|whole|] == whole && s[|whole| + 1..] == frac
  {
    var s := whole + "." + frac;
    assert forall k :: 0 <= k < |whole| ==> s[k] == whole[k];
    assert s[|whole|] == '.';
    assert s[..|whole|] == whole;
    assert s[|whole| + 1..] == frac;
  }

  lemma {:induction false} ParseUnsignedText(n: nat)
    ensures ParseUnsigned(UnsignedText(n)) == Some(n)
  {
    var q, m := n / Unit, n % Unit;
    var whole, frac := NatDigits(q), FracText(m);
    SplitAtDot(whole, frac);
    ShiftedUnit(q);
    assert ParseUnsigned(whole + "." + frac) == Some(Shifted(q, FracDigits) + m);
  }

  /** Reading back a written coordinate gives the same value. */
  lemma {:induction false} ParseFormat(x: Fixed)
    ensures Parse(Format(x)) == Some(x)
  {
    var body := UnsignedText(Abs(x));
    ParseUnsignedText(Abs(x));
    FormatNoControl(x);
    var text := Format(x);
    assert StripControl(text) == text;
    if x < 0 {
      assert text == "-" + body;
      assert text[1..] == body;
      assert Parse(text) == Some(-(Abs(x) as int));
    } else {
      assert text == body;
      assert text[0] != '-' && text[0] != '+';
      assert Parse(text) == Some(Abs(x) as int);
    }
  }
}

=== FILE: favourite_weather.dfy ===
/** Fetching data for every favourite (`getWeatherForFavorites`,
    `getWeatherForecastForFavorites`): one call per place, in list order,
    keeping the results that came back. */
module FavouriteWeather {
  import opened Wrappers
  import opened Decimal
  import opened Api

  /** What the current-conditions call returns for a (lat, lon) pair. */
  type WeatherService = (Fixed, Fixed) -> ApiOutcome<WeatherResponse>
  /** What the forecast call returns for a (lat, lon) pair. */
  type ForecastService = (Fixed, Fixed) -> ApiOutcome<WeatherForecastList>

  function WeatherFor(service: WeatherService): GeoCity -> Option<WeatherResponse> {
    (c: GeoCity) => FetchWeatherData(service(c.lat, c.lon))
  }

  function ForecastFor(service: ForecastService): GeoCity -> Option<WeatherForecastList> {
    (c: GeoCity) => FetchWeatherForecast(service(c.lat, c.lon))
  }

  /** The reference result: the non-null fetch results, in input order. */
  function FavouritesWeather(cities: seq<GeoCity>, service: WeatherService): seq<WeatherResponse> {
    FilterMap(WeatherFor(service), cities)
  }

  function FavouritesForecast(cities: seq<GeoCity>, service: ForecastService): seq<WeatherForecastList> {
    FilterMap(ForecastFor(service), cities)
  }

  /** `getWeatherForFavorites`, loop for loop. */
  method GetWeatherForFavorites(cities: seq<GeoCity>, service: WeatherService)
    returns (weatherList: seq<WeatherResponse>)
    ensures weatherList == FavouritesWeather(cities, service)
    ensures |weatherList| <= |cities|
    ensures forall w :: w in weatherList <==>
      exists i :: 0 <= i < |cities| && service(cities[i].lat, cities[i].lon) == Returned(w)
  {
    weatherList := [];
    for i := 0 to |cities|
      invariant weatherList == FilterMap(WeatherFor(service), cities[..i])
    {
      assert cities[..i + 1][..i] == cities[..i];
      var response := FetchWeatherData(service(cities[i].lat, cities[i].lon));
      if response.Some? {
        weatherList := weatherList + [response.value];
      }
    }
    assert cities[..|cities|] == cities;
    forall w ensures w in weatherList <==>
      exists i :: 0 <= i < |cities| && service(cities[i].lat, cities[i].lon) == Returned(w)
    {
      FilterMapMembers(WeatherFor(service), cities, w);
    }
  }

  /** `getWeatherForecastForFavorites`, loop for loop. */
  method GetWeatherForecastForFavorites(cities: seq<GeoCity>, service: ForecastService)
    returns (forecastList: seq<WeatherForecastList>)
    ensures forecastList == FavouritesForecast(cities, service)
    ensures |forecastList| <= |cities|
    ensures forall f :: f in forecastList <==>
      exists i :: 0 <= i < |cities| && service(cities[i].lat, cities[i].lon) == Returned(f)
  {
    forecastList := [];
    for i := 0 to |cities|
      invariant forecastList == FilterMap(ForecastFor(service), cities[..i])
    {
      assert cities[..i + 1][..i] == cities[..i];
      var response := FetchWeatherForecast(service(cities[i].lat, cities[i].lon));
      if response.Some? {
        forecastList := forecastList + [response.value];
      }
    }
    assert cities[..|cities|] == cities;
    forall f ensures f in forecastList <==>
      exists i :: 0 <= i < |cities| && service(cities[i].lat, cities[i].lon) == Returned(f)
    {
      FilterMapMembers(ForecastFor(service), cities, f);
    }
  }

  /** Adding a place at the end only adds its own result at the end. */
  lemma FavouritesWeatherSnoc(cities: seq<GeoCity>, extra: GeoCity, service: WeatherService)
    ensures FavouritesWeather(cities + [extra], service)
      == FavouritesWeather(cities, service)
         + match FetchWeatherData(service(extra.lat, extra.lon)) case Some(w) => [w] case None => []
  {
    assert (cities + [extra])[..|cities|] == cities;
  }
}

=== FILE: favourites_codec.dfy ===
/** The favourites file: one place per line, `name,lat,lon,country` with
    `,state` appended when the place has a state (Utils.kt,
    `saveFavouriteCities` / `loadFavouriteCities`). */
module FavouritesCodec {
  import opened Wrappers
  import opened Text
  import opened Decimal
  import opened Api
  import opened Storage

  /** The comma-separated fields written for one place. */
  function CityFields(c: GeoCity): seq<string> {
    [c.name, Format(c.lat), Format(c.lon), c.country]
      + match c.state case Some(s) => [s] case None => []
  }

  function EncodeCity(c: GeoCity): string {
    Join(CityFields(c), ",")
  }

  function EncodeCities(cities: seq<GeoCity>): string {
    Join(seq(|cities|, i requires 0 <= i < |cities| => EncodeCity(cities[i])), "\n")
  }

  /** Reading one line: the fields between its commas. */
  function ParseLine(line: string): Option<GeoCity> {
    ReadFields(Split(line, ','))
  }

  /** Reading the fields of one line: at least four, numeric lat and lon;
      name, country and state are trimmed, and only a fifth field is a state. */
  function ReadFields(parts: seq<string>): (r: Option<GeoCity>)
    ensures r.Some? <==> |parts| >= 4 && Parse(parts[1]).Some? && Parse(parts[2]).Some?
    ensures r.Some? ==>
      && r.value.name == Trim(parts[0]) && r.value.country == Trim(parts[3])
      && Some(r.value.lat) == Parse(parts[1]) && Some(r.value.lon) == Parse(parts[2])
      && (r.value.state.Some? <==> |parts| > 4)
      && (|parts| > 4 ==> r.value.state.value == Trim(parts[4]))
  {
    if |parts| >= 4 then
      var name := Trim(parts[0]);
      var lat := Parse(parts[1]);
      var lon := Parse(parts[2]);
      var country := Trim(parts[3]);
      var state := if |parts| > 4 then Some(Trim(parts[4])) else None;
      if lat.Some? && lon.Some? then Some(GeoCity(name, lat.value, lon.value, country, state))
      else None
    else None
  }

  /** Reading a whole file: every line that parses, in file order. */
  function DecodeCities(text: string): seq<GeoCity> {
    FilterMap(ParseLine, Lines(text))
  }

  /** Whatever the text, every place read back has trimmed text fields. */
  lemma DecodedAreTrimmed(text: string)
    ensures forall c :: c in DecodeCities(text) ==>
      Trimmed(c.name) && Trimmed(c.country) && (c.state.Some? ==> Trimmed(c.state.value))
  {
    forall c | c in DecodeCities(text)
      ensures Trimmed(c.name) && Trimmed(c.country) && (c.state.Some? ==> Trimmed(c.state.value))
    {
      FilterMapMembers(ParseLine, Lines(text), c);
    }
  }

  /** `saveFavouriteCities`: write the list; storable places read back unchanged. */
  function SaveFavouriteCities(st: Store, cities: seq<GeoCity>): (r: Store)
    ensures (forall i :: 0 <= i < |cities| ==> Storable(cities[i])) ==> LoadFavouriteCities(r) == cities
    ensures FilesAgreeExcept(r, st, FavoriteCitiesFile)
    ensures r.prefs == st.prefs
  {
    var r := st.(files := st.files[FavoriteCitiesFile := TextFile(EncodeCities(cities))]);
    WriteAgreesExcept(st, FavoriteCitiesFile, TextFile(EncodeCities(cities)));
    if forall i :: 0 <= i < |cities| ==> Storable(cities[i]) then
      LoadWritten(st, cities);
      r
    else r
  }

  /** The favourites file written for storable `cities` loads back as `cities`. */
  lemma LoadWritten(st: Store, cities: seq<GeoCity>)
    requires forall i :: 0 <= i < |cities| ==> Storable(cities[i])
    ensures LoadFavouriteCities(st.(files := st.files[FavoriteCitiesFile := TextFile(EncodeCities(cities))])) == cities
  {
    DecodeEncode(cities);
  }

  /** `loadFavouriteCities`: the places in the file, or none when the file
      is missing or unreadable. */
  function LoadFavouriteCities(st: Store): (r: seq<GeoCity>)
    ensures FavoriteCitiesFile !in st.files ==> r == []
  {
    if FavoriteCitiesFile in st.files && st.files[FavoriteCitiesFile].TextFile? then
      DecodeCities(st.files[FavoriteCitiesFile].text)
    else []
  }

  /** Writing any other file leaves the favourites as they were read. */
  lemma FavouritesUnaffected(a: Store, b: Store, name: string)
    requires FilesAgreeExcept(a, b, name) && name != FavoriteCitiesFile
    ensures LoadFavouriteCities(a) == LoadFavouriteCities(b)
  {
    var f := FavoriteCitiesFile;
    assert f in a.files <==> f in a.files - {name};
    assert f in b.files <==> f in b.files - {name};
    if f in a.files {
      assert a.files[f] == (a.files - {name})[f] == (b.files - {name})[f] == b.files[f];
    }
  }

  /** Text that survives a write and a read: no separator, no line break,
      no whitespace at either end. */
  predicate Plain(s: string) {
    ',' !in s && NoLineBreak(s) && Trimmed(s)
  }

  predicate Storable(c: GeoCity) {
    Plain(c.name) && Plain(c.country) && (c.state.Some? ==> Plain(c.state.value))
  }

  lemma {:induction false} SplitJoin(fields: seq<string>)
    requires |fields| >= 1
    requires forall k :: 0 <= k < |fields| ==> ',' !in fields[k]
    ensures Split(Join(fields, ","), ',') == fields
  {
    if |fields| == 1 {
      SplitNoDelimiter(fields[0], ',');
    } else {
      SplitField(fields[0], Join(fields[1..], ","), ',');
      SplitJoin(fields[1..]);
    }
  }

  lemma FormatPlain(x: Fixed)
    ensures ',' !in Format(x) && NoLineBreak(Format(x))
  {
    var s := Format(x);
    forall k | 0 <= k < |s| ensures s[k] != ',' && !IsLineBreak(s[k]) {
      assert NumeralChar(s[k]);
    }
  }

  /** One storable place reads back from its own line. */
  lemma ParseEncode(c: GeoCity)
    requires Storable(c)
    ensures ParseLine(EncodeCity(c)) == Some(c)
  {
    FieldsWithoutComma(c);
    SplitJoin(CityFields(c));
    ReadWrittenFields(c);
  }

  lemma FieldsWithoutComma(c: GeoCity)
    requires Storable(c)
    ensures forall k :: 0 <= k < |CityFields(c)| ==> ',' !in CityFields(c)[k]
  {
    FormatPlain(c.lat);
    FormatPlain(c.lon);
  }

  /** The fields written for a storable place read back as that place. */
  lemma ReadWrittenFields(c: GeoCity)
    requires Storable(c)
    ensures ReadFields(CityFields(c)) == Some(c)
  {
    CityFieldsShape(c);
    ParseFormat(c.lat);
    ParseFormat(c.lon);
    ReadFieldsOf(CityFields(c), c);
  }

  lemma CityFieldsShape(c: GeoCity)
    ensures var parts := CityFields(c);
      && |parts| == (if c.state.Some? then 5 else 4)
      && parts[0] == c.name && parts[3] == c.country
      && (c.state.Some? ==> parts[4] == c.state.value)
      && parts[1] == Format(c.lat) && parts[2] == Format(c.lon)
  {
  }

  /** Any fields holding a storable place's text, and numerals that read as
      its coordinates, read back as that place. */
  lemma ReadFieldsOf(parts: seq<string>, c: GeoCity)
    requires Storable(c)
    requires |parts| == if c.state.Some? then 5 else 4
    requires parts[0] == c.name && parts[3] == c.country
    requires c.state.Some? ==> parts[4] == c.state.value
    requires Parse(parts[1]) == Some(c.lat) && Parse(parts[2]) == Some(c.lon)
    ensures ReadFields(parts) == Some(c)
  {
    TrimOfTrimmed(c.name);
    TrimOfTrimmed(c.country);
    if c.state.Some? {
      TrimOfTrimmed(c.state.value);
    }
  }

  lemma {:induction false} JoinPlain(fields: seq<string>)
    requires |fields| >= 2
    requires forall k :: 0 <= k < |fields| ==> NoLineBreak(fields[k])
    ensures |Join(fields, ",")| > 0 && NoLineBreak(Join(fields, ","))
  {
    if |fields| > 2 {
      JoinPlain(fields[1..]);
    }
  }

  lemma EncodeCityLine(c: GeoCity)
    requires Storable(c)
    ensures |EncodeCity(c)| > 0 && NoLineBreak(EncodeCity(c))
  {
    FormatPlain(c.lat);
    FormatPlain(c.lon);
    JoinPlain(CityFields(c));
  }

  /** Round trip: reading the written text of storable places gives them back. */
  lemma DecodeEncode(cities: seq<GeoCity>)
    requires forall i :: 0 <= i < |cities| ==> Storable(cities[i])
    ensures DecodeCities(EncodeCities(cities)) == cities
  {
    var lines := seq(|cities|, i requires 0 <= i < |cities| => EncodeCity(cities[i]));
    forall k | 0 <= k < |lines| ensures |lines[k]| > 0 && NoLineBreak(lines[k]) {
      EncodeCityLine(cities[k]);
    }
    LinesOfJoin(lines);
    forall k | 0 <= k < |lines| ensures ParseLine(lines[k]) == Some(cities[k]) {
      ParseEncode(cities[k]);
    }
    FilterMapAllPresent(ParseLine, lines);
  }
}

=== FILE: reconcile.dfy ===
/** The online bookkeeping both refreshes share: the working copy of the
    favourites that also carries the viewed place, and the remote calls a
    refresh makes. */
module Reconcile {
  import opened Wrappers
  import opened Decimal
  import opened Api
  import opened Text
  import opened Storage
  import opened CitiesSection

  /** A remote call, recorded in the order a refresh makes it. */
  datatype Call =
    | FetchWeather(lat: Fixed, lon: Fixed)
    | FetchForecast(lat: Fixed, lon: Fixed)
    | ReverseGeocode(lat: Fixed, lon: Fixed)

  /** The message shown when the viewed place's data could not be fetched. */
  const CityNotFoundMessage: string := "City not found"

  datatype Reconciled = Reconciled(cities: seq<GeoCity>, added: Option<GeoCity>, geocoded: bool)

  /** The working list: the favourites, plus the geocoded place when no
      favourite has exactly the viewed coordinates and geocoding finds one.
      `reverse` is what reverse geocoding of (lat, lon) returned. */
  function WorkingList(favorites: seq<GeoCity>, lat: Fixed, lon: Fixed,
                       reverse: ApiOutcome<seq<GeoCity>>): (r: Reconciled)
    ensures r.geocoded <==> !HasCoords(favorites, lat, lon)
    ensures r.added.Some? <==> !HasCoords(favorites, lat, lon) && CheckIfCityExists(reverse).Some?
    ensures r.added.Some? ==> r.added == CheckIfCityExists(reverse) && r.cities == favorites + [r.added.value]
    ensures r.added.None? ==> r.cities == favorites
    ensures |favorites| <= |r.cities| <= |favorites| + 1 && r.cities[..|favorites|] == favorites
  {
    if HasCoords(favorites, lat, lon) then Reconciled(favorites, None, false)
    else match CheckIfCityExists(reverse)
      case Some(found) => Reconciled(favorites + [found], Some(found), true)
      case None => Reconciled(favorites, None, true)
  }

  /** The star button and an online refresh use one reverse lookup in the
      same way: with a non-blank name and a connection, the button adds a
      place exactly when the refresh's working list gains one, and it is the
      same place appended to the same list. */
  lemma AddAgreesWithRefresh(city: string, lat: Fixed, lon: Fixed, favorites: seq<GeoCity>,
                             st: Store, reverse: ApiOutcome<seq<GeoCity>>)
    requires !IsBlank(city)
    ensures var a := AddFavourite(city, lat, lon, favorites, st, true, reverse);
      var w := WorkingList(favorites, lat, lon, reverse);
      && (a.outcome.Added? <==> w.added.Some?)
      && (a.outcome.Added? ==> a.outcome.city == w.added.value && a.favorites == w.cities)
  {
  }

  /** The current-conditions calls made for a list of places. */
  function WeatherCalls(cities: seq<GeoCity>): (r: seq<Call>)
    ensures |r| == |cities|
    ensures forall i :: 0 <= i < |cities| ==> r[i] == FetchWeather(cities[i].lat, cities[i].lon)
  {
    seq(|cities|, i requires 0 <= i < |cities| => FetchWeather(cities[i].lat, cities[i].lon))
  }

  /** The forecast calls made for a list of places. */
  function ForecastCalls(cities: seq<GeoCity>): (r: seq<Call>)
    ensures |r| == |cities|
    ensures forall i :: 0 <= i < |cities| ==> r[i] == FetchForecast(cities[i].lat, cities[i].lon)
  {
    seq(|cities|, i requires 0 <= i < |cities| => FetchForecast(cities[i].lat, cities[i].lon))
  }

  /** The calls an online refresh makes: the viewed place, the reverse
      geocoding when it ran, then one call per place of the working list. */
  function OnlineCalls(first: Call, lat: Fixed, lon: Fixed, rec: Reconciled, perCity: seq<Call>): seq<Call> {
    [first] + (if rec.geocoded then [ReverseGeocode(lat, lon)] else []) + perCity
  }
}

=== FILE: storage.dfy ===
/** Local storage as two key-value maps: SharedPreferences entries holding
    places, and files in the app's files directory. Serialisation (Gson,
    Java object streams) is not modelled: an entry holds the value that was
    written. A file loader that meets content of another kind (the exception
    its try/catch swallows) reports it as absent. */
module Storage {
  import opened Wrappers
  import opened Api

  datatype FileContent =
    | TextFile(text: string)
    | WeatherJson(weather: seq<WeatherResponse>)
    | ForecastObject(forecast: WeatherForecastList)
    | ForecastListObject(forecasts: seq<WeatherForecastList>)

  datatype Store = Store(prefs: map<string, GeoCity>, files: map<string, FileContent>)

  /** Resource names the core reads and writes. Their values in the app's
      resources are not part of this model; only their distinctness matters. */
  const LastCityWeatherKey: string := "last_city_weather_key"
  const FavoriteCitiesFile: string := "favorite_cities"
  const FavoriteCitiesWeatherFile: string := "favorite_cities_weather"
  const LastCityForecastFile: string := "last_city_forecast"

  /** `a` and `b` hold the same files, except perhaps the one called `name`. */
  predicate FilesAgreeExcept(a: Store, b: Store, name: string) {
    a.files - {name} == b.files - {name}
  }

  /** Writing one file leaves every other file as it was. */
  lemma WriteAgreesExcept(st: Store, name: string, content: FileContent)
    ensures FilesAgreeExcept(st.(files := st.files[name := content]), st, name)
  {
    assert st.files[name := content] - {name} == st.files - {name};
  }

  /** `savePreferenceJson`: store a place under a preference key. */
  function SavePreferenceJson(st: Store, key: string, city: GeoCity): (r: Store)
    ensures LoadPreferenceJson(r, key) == Some(city)
    ensures forall k :: k != key ==> LoadPreferenceJson(r, k) == LoadPreferenceJson(st, k)
    ensures r.files == st.files
  {
    st.(prefs := st.prefs[key := city])
  }

  /** `loadPreferenceJson`: the stored place, or None for a key never stored. */
  function LoadPreferenceJson(st: Store, key: string): (r: Option<GeoCity>)
    ensures r.None? <==> key !in st.prefs
    ensures r.Some? ==> r.value == st.prefs[key]
  {
    if key in st.prefs then Some(st.prefs[key]) else None
  }

  /** `saveFavoriteWeatherList`: replace the cached conditions file. */
  function SaveFavoriteWeatherList(st: Store, list: seq<WeatherResponse>, filename: string): (r: Store)
    ensures LoadFavoriteWeatherList(r, filename) == Some(list)
    ensures FilesAgreeExcept(r, st, filename)
    ensures r.prefs == st.prefs
  {
    st.(files := st.files[filename := WeatherJson(list)])
  }

  /** `loadFavoriteWeatherList`: None when the file is missing or unreadable. */
  function LoadFavoriteWeatherList(st: Store, filename: string): (r: Option<seq<WeatherResponse>>)
    ensures filename !in st.files ==> r.None?
    ensures r.Some? <==> filename in st.files && st.files[filename].WeatherJson?
  {
    if filename in st.files && st.files[filename].WeatherJson? then Some(st.files[filename].weather)
    else None
  }

  /** `saveWeatherForecastData`: write one forecast object to a file. */
  function SaveWeatherForecastData(st: Store, forecast: WeatherForecastList, filename: string): (r: Store)
    ensures LoadFavoriteForecastList(r, filename).None?
    ensures FilesAgreeExcept(r, st, filename)
    ensures r.prefs == st.prefs
  {
    st.(files := st.files[filename := ForecastObject(forecast)])
  }

  /** `saveFavoriteForecastList`: replace the cached forecasts file. */
  function SaveFavoriteForecastList(st: Store, list: seq<WeatherForecastList>, filename: string): (r: Store)
    ensures LoadFavoriteForecastList(r, filename) == Some(list)
    ensures FilesAgreeExcept(r, st, filename)
    ensures r.prefs == st.prefs
  {
    st.(files := st.files[filename := ForecastListObject(list)])
  }

  /** `loadFavoriteForecastList`: None when the file is missing or does not
      hold a list (a single forecast object fails the cast to a list). */
  function LoadFavoriteForecastList(st: Store, filename: string): (r: Option<seq<WeatherForecastList>>)
    ensures filename !in st.files ==> r.None?
    ensures r.Some? <==> filename in st.files && st.files[filename].ForecastListObject?
  {
    if filename in st.files && st.files[filename].ForecastListObject? then
      Some(st.files[filename].forecasts)
    else None
  }
}

=== FILE: text.dfy ===
/** Kotlin/JVM string operations the core relies on: `trim()`, `split(",")`,
    `joinToString("\n")`, `File.readLines()` and `contains`. */
module Text {

  /** Kotlin's `Char.isWhitespace()` on the JVM: Java's `isWhitespace` or
      `isSpaceChar`. */
  predicate IsWhitespace(c: char) {
    || c == ' ' || c == '\t' || c == '\n' || c == '\U{000B}' || c == '\U{000C}' || c == '\r'
    || ('\U{001C}' <= c <= '\U{001F}')
    || c == '\U{00A0}' || c == '\U{1680}' || ('\U{2000}' <= c <= '\U{200A}')
    || c == '\U{2028}' || c == '\U{2029}' || c == '\U{202F}' || c == '\U{205F}' || c == '\U{3000}'
  }

  /** A string with no whitespace at either end (what `trim()` leaves). */
  predicate Trimmed(s: string) {
    |s| == 0 || (!IsWhitespace(s[0]) && !IsWhitespace(s[|s| - 1]))
  }

  function TrimStart(s: string): (r: string)
    ensures |r| <= |s| && r == s[|s| - |r|..]
    ensures |r| == 0 || !IsWhitespace(r[0])
    ensures forall i :: 0 <= i < |s| - |r| ==> IsWhitespace(s[i])
  {
    if |s| > 0 && IsWhitespace(s[0]) then TrimStart(s[1..]) else s
  }

  function TrimEnd(s: string): (r: string)
    ensures |r| <= |s| && r == s[..|r|]
    ensures |r| == 0 || !IsWhitespace(r[|r| - 1])
    ensures forall i :: |r| <= i < |s| ==> IsWhitespace(s[i])
  {
    if |s| > 0 && IsWhitespace(s[|s| - 1]) then TrimEnd(s[..|s| - 1]) else s
  }

  /** Kotlin's `trim()`: drop leading and trailing whitespace. */
  function Trim(s: string): (r: string)
    ensures Trimmed(r) && |r| <= |s|
    ensures |r| == 0 <==> forall k :: 0 <= k < |s| ==> IsWhitespace(s[k])
  {
    var a := TrimStart(s);
    var r := TrimEnd(a);
    assert |r| > 0 ==> r[0] == a[0];
    TrimEmpty(s, a, r);
    r
  }

  lemma TrimEmpty(s: string, a: string, r: string)
    requires a == TrimStart(s) && r == TrimEnd(a)
    ensures |r| == 0 <==> forall k :: 0 <= k < |s| ==> IsWhitespace(s[k])
  {
    var i := |s| - |a|;
    if |r| == 0 {
      assert |a| == 0;
    } else {
      assert a[0] == s[i];
    }
  }

  /** `s[i..j]` is what is left of `s` once only whitespace is cut off
      before `i` and from `j` on. */
  predicate WhitespaceCut(s: string, i: int, j: int) {
    && 0 <= i <= j <= |s|
    && (forall k :: 0 <= k < i ==> IsWhitespace(s[k]))
    && (forall k :: j <= k < |s| ==> IsWhitespace(s[k]))
  }

  /** What `trim()` keeps is an infix of its input, with only whitespace
      cut off at either end. */
  lemma TrimIsInfix(s: string)
    ensures exists i, j :: WhitespaceCut(s, i, j) && Trim(s) == s[i..j]
  {
    var a := TrimStart(s);
    var r := TrimEnd(a);
    var i := |s| - |a|;
    var j := i + |r|;
    assert a == s[i..];
    assert r == s[i..j];
    forall k | j <= k < |s|
      ensures IsWhitespace(s[k])
    {
      assert s[k] == a[k - i];
    }
    assert WhitespaceCut(s, i, j);
  }

  lemma TrimOfTrimmed(s: string)
    requires Trimmed(s)
    ensures Trim(s) == s
  {
  }

  /** `s.trim().isEmpty()`: the string holds whitespace only. */
  predicate IsBlank(s: string) {
    |Trim(s)| == 0
  }

  lemma BlankIffAllWhitespace(s: string)
    ensures IsBlank(s) <==> forall k :: 0 <= k < |s| ==> IsWhitespace(s[k])
  {
  }

  /** Position of the first `d` in `s`, or |s| when there is none. */
  function IndexOf(s: string, d: char): (i: nat)
    ensures i <= |s|
    ensures forall k :: 0 <= k < i ==> s[k] != d
    ensures i < |s| ==> s[i] == d
  {
    if |s| == 0 then 0
    else if s[0] == d then 0
    else 1 + IndexOf(s[1..], d)
  }

  /** Kotlin's `split(d)` with no limit: every field, empty ones included. */
  function Split(s: string, d: char): (r: seq<string>)
    ensures |r| >= 1
    ensures forall k :: 0 <= k < |r| ==> d !in r[k]
    decreases |s|
  {
    var i := IndexOf(s, d);
    if i == |s| then [s] else [s[..i]] + Split(s[i + 1..], d)
  }

  lemma SplitNoDelimiter(s: string, d: char)
    requires d !in s
    ensures Split(s, d) == [s]
  {
    assert IndexOf(s, d) == |s|;
  }

  lemma SplitField(a: string, b: string, d: char)
    requires d !in a
    ensures Split(a + [d] + b, d) == [a] + Split(b, d)
  {
    var s := a + [d] + b;
    var i := IndexOf(s, d);
    assert forall k :: 0 <= k < |a| ==> s[k] == a[k];
    assert s[|a|] == d;
    assert i == |a|;
    assert s[..i] == a;
    assert s[i + 1..] == b;
  }

  /** Kotlin's `joinToString(sep)`. */
  function Join(xs: seq<string>, sep: string): string {
    if |xs| == 0 then ""
    else if |xs| == 1 then xs[0]
    else xs[0] + sep + Join(xs[1..], sep)
  }

  predicate IsLineBreak(c: char) {
    c == '\n' || c == '\r'
  }

  /** Position of the first line terminator, or |s|. */
  function LineEnd(s: string): (i: nat)
    ensures i <= |s|
    ensures forall k :: 0 <= k < i ==> !IsLineBreak(s[k])
    ensures i < |s| ==> IsLineBreak(s[i])
  {
    if |s| == 0 then 0
    else if IsLineBreak(s[0]) then 0
    else 1 + LineEnd(s[1..])
  }

  /** `File.readLines()`: lines end at "\n", "\r" or "\r\n"; a final terminator
      does not start an extra empty line, and empty text has no lines. */
  function Lines(s: string): (r: seq<string>)
    ensures forall k :: 0 <= k < |r| ==> forall j :: 0 <= j < |r[k]| ==> !IsLineBreak(r[k][j])
    decreases |s|
  {
    if |s| == 0 then []
    else
      var i := LineEnd(s);
      var next :=
        if i == |s| then |s|
        else if s[i] == '\r' && i + 1 < |s| && s[i + 1] == '\n' then i + 2
        else i + 1;
      [s[..i]] + Lines(s[next..])
  }

  predicate NoLineBreak(s: string) {
    forall j :: 0 <= j < |s| ==> !IsLineBreak(s[j])
  }

  /** Reading back lines written with `joinToString("\n")` gives the same
      lines, provided none is empty and none holds a terminator. */
  lemma {:induction false} LinesOfJoin(xs: seq<string>)
    requires forall k :: 0 <= k < |xs| ==> |xs[k]| > 0 && NoLineBreak(xs[k])
    ensures Lines(Join(xs, "\n")) == xs
  {
    if |xs| == 1 {
      LinesOfLine(xs[0]);
    } else if |xs| > 1 {
      var rest := Join(xs[1..], "\n");
      assert Join(xs, "\n") == xs[0] + "\n" + rest;
      LinesAfterLine(xs[0], rest);
      LinesOfJoin(xs[1..]);
      assert xs == [xs[0]] + xs[1..];
    }
  }

  /** A single line without terminator reads back as itself. */
  lemma LinesOfLine(line: string)
    requires |line| > 0 && NoLineBreak(line)
    ensures Lines(line) == [line]
  {
    LineEndOfPlain(line, "");
    assert line + "" == line;
    assert line[..|line|] == line;
  }

  /** A line ended by "\n" is the first line read, and reading resumes after it. */
  lemma LinesAfterLine(line: string, rest: string)
    requires NoLineBreak(line)
    ensures Lines(line + "\n" + rest) == [line] + Lines(rest)
  {
    var s := line + "\n" + rest;
    assert s == line + ("\n" + rest);
    LineEndOfPlain(line, "\n" + rest);
    assert s[|line|] == '\n';
    assert s[..|line|] == line;
    assert s[|line| + 1..] == rest;
  }

  lemma {:induction false} LineEndOfPlain(line: string, tail: string)
    requires NoLineBreak(line)
    requires |tail| == 0 || IsLineBreak(tail[0])
    ensures LineEnd(line + tail) == |line|
    decreases |line|
  {
    if |line| > 0 {
      assert (line + tail)[1..] == line[1..] + tail;
      LineEndOfPlain(line[1..], tail);
    } else {
      assert line + tail == tail;
    }
  }

  /** Kotlin's `contains(other)` on strings. */
  predicate Contains(s: string, part: string) {
    exists i :: 0 <= i <= |s| - |part| && OccursAt(s, part, i)
  }

  predicate OccursAt(s: string, part: string, i: int)
    requires 0 <= i <= |s| - |part|
  {
    s[i..i + |part|] == part
  }
}

=== FILE: view_model.dfy ===
/** The auto-refresh timer of `WeatherViewModel`: accounting of active time
    across pauses, with the clock read passed in as `now` (milliseconds).
    The coroutine loop is modelled one check at a time. */
module WeatherViewModel {

  datatype Timer = Timer(lastResumeTime: int, accumulatedActiveTime: int, running: bool)

  /** Both counters start at zero, with no job. */
  const Initial: Timer := Timer(0, 0, false)

  /** `startAutoRefreshTimer`: restart the clock at `now`, cancelling any
      earlier job; the accumulated time is kept. */
  function Start(t: Timer, now: int): (r: Timer)
    ensures r.running && r.lastResumeTime == now
    ensures r.accumulatedActiveTime == t.accumulatedActiveTime
  {
    t.(lastResumeTime := now, running := true)
  }

  /** `pauseAutoRefresh`: add the time since the last resume and cancel the
      job, without running the callback. The resume time is not touched. */
  function Pause(t: Timer, now: int): (r: Timer)
    ensures !r.running && r.lastResumeTime == t.lastResumeTime
    ensures r.accumulatedActiveTime - t.accumulatedActiveTime == now - t.lastResumeTime
  {
    t.(accumulatedActiveTime := t.accumulatedActiveTime + (now - t.lastResumeTime), running := false)
  }

  /** Active time the loop counts at `now`. */
  function Elapsed(t: Timer, now: int): int {
    t.accumulatedActiveTime + (now - t.lastResumeTime)
  }

  /** What one pass of the loop does: run the callback, or wait. */
  datatype Action = Refresh | Delay(ms: int)

  datatype CheckResult = CheckResult(timer: Timer, action: Action)

  /** One pass of the loop at `now`. When the interval is used up the
      callback runs and the clock restarts at `afterRefresh`, the time read
      once the callback has returned; otherwise the loop waits exactly the
      remaining time. */
  function Check(t: Timer, interval: int, now: int, afterRefresh: int): (r: CheckResult)
    requires t.running
    ensures r.action.Refresh? <==> Elapsed(t, now) >= interval
    ensures r.action.Refresh? ==> r.timer == Timer(afterRefresh, 0, true)
    ensures r.action.Delay? ==> r.timer == t && r.action.ms > 0 && Elapsed(t, now) + r.action.ms == interval
  {
    var elapsed := t.accumulatedActiveTime + (now - t.lastResumeTime);
    var remaining := interval - elapsed;
    if remaining <= 0 then CheckResult(Timer(afterRefresh, 0, true), Refresh)
    else CheckResult(t, Delay(remaining))
  }

  /** After waiting out a delay, the next pass refreshes. */
  lemma DelayThenRefresh(t: Timer, interval: int, now: int, after1: int, after2: int)
    requires t.running && Check(t, interval, now, after1).action.Delay?
    ensures var ms := Check(t, interval, now, after1).action.ms;
      Check(t, interval, now + ms, after2).action.Refresh?
  {
  }

  /** A pass before the interval's worth of active time delays. */
  lemma NoEarlyRefresh(t: Timer, interval: int, now: int, after: int)
    requires t.running && Elapsed(t, now) < interval
    ensures Check(t, interval, now, after).action.Delay?
  {
  }

  /** Start or pause, at a time. */
  datatype Event = StartAt(time: int) | PauseAt(time: int)

  function Apply(t: Timer, e: Event): Timer {
    match e
    case StartAt(now) => Start(t, now)
    case PauseAt(now) => Pause(t, now)
  }

  /** The timer after a sequence of starts and pauses from the initial state. */
  function Run(events: seq<Event>): Timer {
    if |events| == 0 then Initial else Apply(Run(events[..|events| - 1]), events[|events| - 1])
  }

  /** Starts and pauses alternate, beginning with a start, in time order. */
  predicate Alternating(events: seq<Event>) {
    && (forall i :: 0 <= i < |events| ==> (events[i].StartAt? <==> i % 2 == 0))
    && (forall i :: 0 < i < |events| ==> events[i - 1].time <= events[i].time)
  }

  /** Reference: the total length of the finished start-to-pause spans. */
  function ActiveSpans(events: seq<Event>): int {
    if |events| <= 1 then 0
    else if |events| % 2 == 0 then
      ActiveSpans(events[..|events| - 2]) + (events[|events| - 1].time - events[|events| - 2].time)
    else ActiveSpans(events[..|events| - 1])
  }

  /** With alternating starts and pauses, the accumulated time is exactly
      the finished active spans, and a running timer resumed at the last start. */
  lemma {:induction false} RunCountsActiveSpans(events: seq<Event>)
    requires Alternating(events)
    ensures Run(events).accumulatedActiveTime == ActiveSpans(events)
    ensures Run(events).running <==> |events| % 2 == 1
    ensures |events| % 2 == 1 ==> Run(events).lastResumeTime == events[|events| - 1].time
  {
    if |events| > 0 {
      var init := events[..|events| - 1];
      assert Alternating(init);
      RunCountsActiveSpans(init);
      if |events| % 2 == 0 {
        assert init[..|init| - 1] == events[..|events| - 2];
      }
    }
  }

  /** The refresh never comes before `interval` milliseconds of active time:
      after alternating starts and pauses ending in a start, a pass at `now`
      refreshes exactly when the finished spans plus the current span reach
      the interval. Paused time is not counted. */
  lemma {:induction false} RefreshCountsOnlyActiveTime(events: seq<Event>, interval: int, now: int, after: int)
    requires Alternating(events) && |events| % 2 == 1
    ensures Check(Run(events), interval, now, after).action.Refresh?
      <==> ActiveSpans(events) + (now - events[|events| - 1].time) >= interval
  {
    RunCountsActiveSpans(events);
  }

  /** The example: a 10000 ms interval, 4000 ms active, a pause of any
      length, then the refresh comes 6000 ms after the restart. */
  lemma PauseThenResume(t0: int, pausedFor: nat, x: int, after: int)
    ensures var t := Start(Pause(Start(Initial, t0), t0 + 4000), t0 + 4000 + pausedFor);
      Check(t, 10000, t0 + 4000 + pausedFor + x, after).action.Refresh? <==> x >= 6000
  {
  }

  /** Two pauses with no start between them count the span up to the first
      pause twice, since a pause leaves the resume time as it was. */
  lemma DoublePauseCountsTwice(t: Timer, p1: int, p2: int)
    ensures Pause(Pause(t, p1), p2).accumulatedActiveTime
            == t.accumulatedActiveTime + (p1 - t.lastResumeTime) + (p2 - t.lastResumeTime)
  {
  }
}

=== FILE: weather_forecast.dfy ===
/** The forecast screen: its starting selection and one run of
    `updateWeatherForecast` as a state transition. */
module WeatherForecast {
  import opened Wrappers
  import opened Text
  import opened Decimal
  import opened Coords
  import opened Api
  import opened Storage
  import opened FavouritesCodec
  import opened CitiesSection
  import opened FavouriteWeather
  import opened Reconcile
  import WeatherScreen

  /** The screen state `updateWeatherForecast` reads and writes. */
  datatype ForecastScreenState = ForecastScreenState(
    city: string, lat: Fixed, lon: Fixed,
    forecast: Option<WeatherForecastList>, error: Option<string>, isLoading: bool,
    favorites: seq<GeoCity>, forecastList: seq<WeatherForecastList>, currentCityShowed: string)

  datatype ForecastStep = ForecastStep(state: ForecastScreenState, store: Store, calls: seq<Call>)

  /** A cached forecast whose place matches (lat, lon) after rounding. */
  predicate ForecastAt(f: WeatherForecastList, lat: Fixed, lon: Fixed) {
    SamePlace(f.city.coord.lat, f.city.coord.lon, lat, lon)
  }

  /** The online branch. The viewed place's forecast (`current`) is first
      written on its own to the forecast file, which the list of the
      favourites' forecasts (`service`, a separate request per place) then
      overwrites. */
  function UpdateForecastOnline(s: ForecastScreenState, st: Store, current: ForecastService, service: ForecastService,
                                reverse: ApiOutcome<seq<GeoCity>>): (r: ForecastStep)
    ensures !r.state.isLoading
    ensures current(s.lat, s.lon).Returned? ==>
      && r.state.forecast == Some(current(s.lat, s.lon).value)
      && r.state.currentCityShowed == s.city && r.state.error.None?
    ensures current(s.lat, s.lon).Threw? ==>
      && r.state.forecast == s.forecast && r.state.currentCityShowed == s.currentCityShowed
      && r.state.error == Some(CityNotFoundMessage)
    ensures r.state.city == s.city && r.state.lat == s.lat && r.state.lon == s.lon
    ensures r.state.favorites == s.favorites
    ensures var rec := WorkingList(s.favorites, s.lat, s.lon, reverse);
      && r.state.forecastList == FavouritesForecast(rec.cities, service)
      && r.calls == OnlineCalls(FetchForecast(s.lat, s.lon), s.lat, s.lon, rec, ForecastCalls(rec.cities))
      && LoadPreferenceJson(r.store, LastCityWeatherKey)
         == (if rec.added.Some? then rec.added else LoadPreferenceJson(st, LastCityWeatherKey))
    ensures LoadFavoriteForecastList(r.store, LastCityForecastFile) == Some(r.state.forecastList)
    ensures forall k :: k != LastCityWeatherKey ==> LoadPreferenceJson(r.store, k) == LoadPreferenceJson(st, k)
    ensures FilesAgreeExcept(r.store, st, LastCityForecastFile)
  {
    var result := FetchWeatherForecast(current(s.lat, s.lon));
    var s1 := if result.Some? then s.(forecast := result, currentCityShowed := s.city, error := None)
              else s.(error := Some(CityNotFoundMessage));
    var st1 := if result.Some? then SaveWeatherForecastData(st, result.value, LastCityForecastFile) else st;
    var rec := WorkingList(s.favorites, s.lat, s.lon, reverse);
    var st2 := if rec.added.Some? then SavePreferenceJson(st1, LastCityWeatherKey, rec.added.value) else st1;
    var list := FavouritesForecast(rec.cities, service);
    var st3 := SaveFavoriteForecastList(st2, list, LastCityForecastFile);
    ForecastStep(s1.(isLoading := false, forecastList := list), st3,
                 OnlineCalls(FetchForecast(s.lat, s.lon), s.lat, s.lon, rec, ForecastCalls(rec.cities)))
  }

  /** The offline branch: show the cached forecast for (lat, lon), if any.
      Storage is only read. */
  function UpdateForecastOffline(s: ForecastScreenState, st: Store): (r: ForecastStep)
    ensures r.calls == [] && r.store == st
    ensures r.state.forecastList == LoadFavoriteForecastList(st, LastCityForecastFile).GetOr([])
    ensures r.state.city == s.city && r.state.lat == s.lat && r.state.lon == s.lon
    ensures r.state.favorites == s.favorites && r.state.error == s.error
    ensures (forall i :: 0 <= i < |r.state.forecastList| ==> !ForecastAt(r.state.forecastList[i], s.lat, s.lon))
            ==> && r.state.forecast == s.forecast && r.state.currentCityShowed == s.currentCityShowed
                && r.state.isLoading == s.isLoading
    ensures (exists i :: 0 <= i < |r.state.forecastList| && ForecastAt(r.state.forecastList[i], s.lat, s.lon))
            ==> && !r.state.isLoading && r.state.currentCityShowed == s.city && r.state.forecast.Some?
                && exists i :: (0 <= i < |r.state.forecastList| && r.state.forecastList[i] == r.state.forecast.value
                                && ForecastAt(r.state.forecastList[i], s.lat, s.lon)
                                && forall j :: 0 <= j < i ==> !ForecastAt(r.state.forecastList[j], s.lat, s.lon))
  {
    var list := LoadFavoriteForecastList(st, LastCityForecastFile).GetOr([]);
    var found := Find((f: WeatherForecastList) => ForecastAt(f, s.lat, s.lon), list);
    if found.Some? then
      ForecastStep(s.(forecastList := list, forecast := found, currentCityShowed := s.city, isLoading := false), st, [])
    else
      ForecastStep(s.(forecastList := list), st, [])
  }

  /** `updateWeatherForecast`: nothing for a blank city field; otherwise the
      online or the offline branch. */
  function UpdateWeatherForecast(s: ForecastScreenState, st: Store, online: bool, current: ForecastService, service: ForecastService,
                                 reverse: ApiOutcome<seq<GeoCity>>): (r: ForecastStep)
    ensures IsBlank(s.city) ==> r.state == s && r.store == st && r.calls == []
    ensures r.state.favorites == s.favorites
    ensures LoadFavouriteCities(r.store) == LoadFavouriteCities(st)
    ensures !IsBlank(s.city) && online ==> !r.state.isLoading && |r.calls| > 0 && r.calls[0] == FetchForecast(s.lat, s.lon)
    ensures !online ==> r.calls == [] && r.store == st
  {
    if IsBlank(s.city) then ForecastStep(s, st, [])
    else if online then
      var r := UpdateForecastOnline(s, st, current, service, reverse);
      FavouritesUnaffected(r.store, st, LastCityForecastFile);
      r
    else UpdateForecastOffline(s, st)
  }

  /** The starting selection as written: the last viewed name, but
      coordinates fixed at (0, 0). */
  function InitialSelectionAsWritten(st: Store): (s: Selection)
    ensures s.lat == 0 && s.lon == 0
    ensures s.city == if LoadPreferenceJson(st, LastCityWeatherKey).Some?
                      then LoadPreferenceJson(st, LastCityWeatherKey).value.name else ""
  {
    var name := match LoadPreferenceJson(st, LastCityWeatherKey) case Some(c) => c.name case None => "";
    Selection(name, 0, 0)
  }

  /** The screen as first composed in the source: favourites loaded from
      the file, nothing shown yet, and the as-written selection. */
  function InitialStateAsWritten(st: Store): (s: ForecastScreenState)
    ensures s.forecast.None? && s.error.None? && !s.isLoading && s.forecastList == []
    ensures s.favorites == LoadFavouriteCities(st) && s.currentCityShowed == ""
    ensures s.lat == 0 && s.lon == 0
    ensures s.city == if LoadPreferenceJson(st, LastCityWeatherKey).Some?
                      then LoadPreferenceJson(st, LastCityWeatherKey).value.name else ""
  {
    var sel := InitialSelectionAsWritten(st);
    ForecastScreenState(sel.city, sel.lat, sel.lon, None, None, false, LoadFavouriteCities(st), [], "")
  }

  /** As written, a screen opened after viewing a place away from (0, 0)
      fetches the forecast for (0, 0) and shows it under that place's name. */
  lemma AsWrittenShowsWrongPlace(st: Store, last: GeoCity, current: ForecastService, service: ForecastService,
                                 reverse: ApiOutcome<seq<GeoCity>>, f: WeatherForecastList)
    requires LoadPreferenceJson(st, LastCityWeatherKey) == Some(last)
    requires !IsBlank(last.name) && (last.lat != 0 || last.lon != 0)
    requires current(0, 0) == Returned(f)
    ensures var r := UpdateWeatherForecast(InitialStateAsWritten(st), st, true, current, service, reverse);
      && r.calls[0] == FetchForecast(0, 0) && r.calls[0] != FetchForecast(last.lat, last.lon)
      && r.state.currentCityShowed == last.name && r.state.forecast == Some(f)
  {
  }

  /** The starting selection as the current-conditions screen makes it:
      the last viewed place's name and coordinates together. */
  function InitialSelection(st: Store): (s: Selection)
    ensures LoadPreferenceJson(st, LastCityWeatherKey).None? ==> s == Selection("", 0, 0)
    ensures LoadPreferenceJson(st, LastCityWeatherKey).Some? ==>
      var last := LoadPreferenceJson(st, LastCityWeatherKey).value;
      s.city == last.name && s.lat == last.lat && s.lon == last.lon
  {
    WeatherScreen.InitialSelection(st)
  }

  /** The screen as first composed, with the corrected selection. */
  function InitialState(st: Store): (s: ForecastScreenState)
    ensures s.forecast.None? && s.error.None? && !s.isLoading && s.forecastList == []
    ensures s.favorites == LoadFavouriteCities(st) && s.currentCityShowed == ""
    ensures Selection(s.city, s.lat, s.lon) == InitialSelection(st)
  {
    var sel := InitialSelection(st);
    ForecastScreenState(sel.city, sel.lat, sel.lon, None, None, false, LoadFavouriteCities(st), [], "")
  }

  /** With the corrected selection, the first online refresh fetches the
      last viewed place itself. */
  lemma InitialRefreshFetchesLastViewed(st: Store, last: GeoCity, current: ForecastService, service: ForecastService,
                                        reverse: ApiOutcome<seq<GeoCity>>)
    requires LoadPreferenceJson(st, LastCityWeatherKey) == Some(last) && !IsBlank(last.name)
    ensures var r := UpdateWeatherForecast(InitialState(st), st, true, current, service, reverse);
      r.calls[0] == FetchForecast(last.lat, last.lon)
      && (current(last.lat, last.lon).Returned? ==>
            r.state.forecast == Some(current(last.lat, last.lon).value) && r.state.currentCityShowed == last.name)
  {
  }
}

=== FILE: weather_screen.dfy ===
/** The current-conditions screen: its starting selection and one run of
    `updateWeather` as a state transition. The connectivity check, the
    weather service and reverse geocoding are inputs. The fetch for the
    viewed place (`current`) and the fetches for the favourites (`service`)
    are separate requests, so they are separate inputs. */
module WeatherScreen {
  import opened Wrappers
  import opened Text
  import opened Decimal
  import opened Coords
  import opened Api
  import opened Storage
  import opened FavouritesCodec
  import opened CitiesSection
  import opened FavouriteWeather
  import opened Reconcile

  /** The screen state `updateWeather` reads and writes. */
  datatype WeatherScreenState = WeatherScreenState(
    city: string, lat: Fixed, lon: Fixed,
    weather: Option<WeatherResponse>, error: Option<string>, isLoading: bool,
    favorites: seq<GeoCity>, weatherList: seq<WeatherResponse>)

  /** A refresh's result: the new state, the storage after it, the remote calls made. */
  datatype WeatherStep = WeatherStep(state: WeatherScreenState, store: Store, calls: seq<Call>)

  /** The starting selection: the last viewed place, or "" at (0, 0). */
  function InitialSelection(st: Store): (s: Selection)
    ensures LoadPreferenceJson(st, LastCityWeatherKey).None? ==> s == Selection("", 0, 0)
    ensures LoadPreferenceJson(st, LastCityWeatherKey).Some? ==>
      ChooseFavourite(LoadPreferenceJson(st, LastCityWeatherKey).value) == s
  {
    match LoadPreferenceJson(st, LastCityWeatherKey)
    case Some(c) => Selection(c.name, c.lat, c.lon)
    case None => Selection("", 0, 0)
  }

  /** The screen as first composed. */
  function InitialState(st: Store): (s: WeatherScreenState)
    ensures s.weather.None? && s.error.None? && !s.isLoading && s.weatherList == []
    ensures s.favorites == LoadFavouriteCities(st)
    ensures Selection(s.city, s.lat, s.lon) == InitialSelection(st)
  {
    var sel := InitialSelection(st);
    WeatherScreenState(sel.city, sel.lat, sel.lon, None, None, false, LoadFavouriteCities(st), [])
  }

  /** A cached entry that matches (lat, lon) after rounding to four decimals. */
  predicate CachedAt(w: WeatherResponse, lat: Fixed, lon: Fixed) {
    SamePlace(w.coord.lat, w.coord.lon, lat, lon)
  }

  predicate FavouriteAt(c: GeoCity, lat: Fixed, lon: Fixed) {
    SamePlace(c.lat, c.lon, lat, lon)
  }

  /** The tests the offline branch searches with. */
  function CachedHere(lat: Fixed, lon: Fixed): WeatherResponse -> bool {
    w => CachedAt(w, lat, lon)
  }

  function FavouriteHere(lat: Fixed, lon: Fixed): GeoCity -> bool {
    c => FavouriteAt(c, lat, lon)
  }

  /** The online branch: fetch the viewed place, then refresh and save the
      cache for the working list. */
  function UpdateWeatherOnline(s: WeatherScreenState, st: Store, current: WeatherService, service: WeatherService,
                               reverse: ApiOutcome<seq<GeoCity>>): (r: WeatherStep)
    ensures !r.state.isLoading
    ensures current(s.lat, s.lon).Threw? ==>
      r.state.error == Some(CityNotFoundMessage) && r.state.weather == s.weather
    ensures current(s.lat, s.lon).Returned? ==>
      r.state.error.None? && r.state.weather == Some(current(s.lat, s.lon).value)
    ensures r.state.city == s.city && r.state.lat == s.lat && r.state.lon == s.lon
    ensures r.state.favorites == s.favorites
    ensures var rec := WorkingList(s.favorites, s.lat, s.lon, reverse);
      && r.state.weatherList == FavouritesWeather(rec.cities, service)
      && r.calls == OnlineCalls(FetchWeather(s.lat, s.lon), s.lat, s.lon, rec, WeatherCalls(rec.cities))
      && LoadPreferenceJson(r.store, LastCityWeatherKey)
         == (if rec.added.Some? then rec.added else LoadPreferenceJson(st, LastCityWeatherKey))
    ensures LoadFavoriteWeatherList(r.store, FavoriteCitiesWeatherFile) == Some(r.state.weatherList)
    ensures forall k :: k != LastCityWeatherKey ==> LoadPreferenceJson(r.store, k) == LoadPreferenceJson(st, k)
    ensures FilesAgreeExcept(r.store, st, FavoriteCitiesWeatherFile)
  {
    var result := FetchWeatherData(current(s.lat, s.lon));
    var shown := if result.Some? then result else s.weather;
    var error := if result.Some? then None else Some(CityNotFoundMessage);
    var rec := WorkingList(s.favorites, s.lat, s.lon, reverse);
    var st1 := if rec.added.Some? then SavePreferenceJson(st, LastCityWeatherKey, rec.added.value) else st;
    var list := FavouritesWeather(rec.cities, service);
    var st2 := SaveFavoriteWeatherList(st1, list, FavoriteCitiesWeatherFile);
    WeatherStep(s.(weather := shown, error := error, isLoading := false, weatherList := list),
                st2, OnlineCalls(FetchWeather(s.lat, s.lon), s.lat, s.lon, rec, WeatherCalls(rec.cities)))
  }

  /** The offline branch: read the cache and show the first entry for
      (lat, lon), if any; with one, the first favourite there (if any)
      becomes the last viewed place. No remote call. */
  function UpdateWeatherOffline(s: WeatherScreenState, st: Store): (r: WeatherStep)
    ensures r.calls == [] && r.store.files == st.files
    ensures r.state.weatherList == LoadFavoriteWeatherList(st, FavoriteCitiesWeatherFile).GetOr([])
    ensures r.state.city == s.city && r.state.lat == s.lat && r.state.lon == s.lon
    ensures r.state.favorites == s.favorites && r.state.error == s.error
    ensures var list, here := r.state.weatherList, CachedHere(s.lat, s.lon);
      && (NoneWhere(here, list) ==> r.state.weather == s.weather && r.state.isLoading == s.isLoading)
      && (!NoneWhere(here, list) ==>
            && !r.state.isLoading && r.state.weather.Some?
            && exists i :: FirstWhere(here, list, i) && list[i] == r.state.weather.value)
    ensures var favs, here := s.favorites, FavouriteHere(s.lat, s.lon);
      && (!NoneWhere(CachedHere(s.lat, s.lon), r.state.weatherList) && !NoneWhere(here, favs) ==>
            exists i :: FirstWhere(here, favs, i) && LoadPreferenceJson(r.store, LastCityWeatherKey) == Some(favs[i]))
      && (NoneWhere(CachedHere(s.lat, s.lon), r.state.weatherList) || NoneWhere(here, favs) ==> r.store == st)
    ensures forall k :: k != LastCityWeatherKey ==> LoadPreferenceJson(r.store, k) == LoadPreferenceJson(st, k)
  {
    var list := LoadFavoriteWeatherList(st, FavoriteCitiesWeatherFile).GetOr([]);
    var found := Find(CachedHere(s.lat, s.lon), list);
    if found.Some? then
      var matched := Find(FavouriteHere(s.lat, s.lon), s.favorites);
      var st1 := if matched.Some? then SavePreferenceJson(st, LastCityWeatherKey, matched.value) else st;
      WeatherStep(s.(weatherList := list, weather := found, isLoading := false), st1, [])
    else
      WeatherStep(s.(weatherList := list), st, [])
  }

  /** `updateWeather`: nothing at all for a blank city field; otherwise the
      online or the offline branch. */
  function UpdateWeather(s: WeatherScreenState, st: Store, online: bool, current: WeatherService, service: WeatherService,
                         reverse: ApiOutcome<seq<GeoCity>>): (r: WeatherStep)
    ensures IsBlank(s.city) ==> r.state == s && r.store == st && r.calls == []
    ensures r.state.favorites == s.favorites
    ensures LoadFavouriteCities(r.store) == LoadFavouriteCities(st)
    ensures !IsBlank(s.city) && online ==> !r.state.isLoading && |r.calls| > 0 && r.calls[0] == FetchWeather(s.lat, s.lon)
    ensures !online ==> r.calls == []
    ensures !online ==> LoadFavoriteWeatherList(r.store, FavoriteCitiesWeatherFile)
                        == LoadFavoriteWeatherList(st, FavoriteCitiesWeatherFile)
  {
    if IsBlank(s.city) then WeatherStep(s, st, [])
    else if online then
      var r := UpdateWeatherOnline(s, st, current, service, reverse);
      FavouritesUnaffected(r.store, st, FavoriteCitiesWeatherFile);
      r
    else
      var r := UpdateWeatherOffline(s, st);
      FavouritesUnaffected(r.store, st, FavoriteCitiesWeatherFile);
      r
  }

  /** Offline, a cached entry at exactly the viewed coordinates is shown,
      and no remote call is made. */
  lemma OfflineShowsCachedEntry(s: WeatherScreenState, st: Store, current: WeatherService, service: WeatherService,
                                reverse: ApiOutcome<seq<GeoCity>>, cached: WeatherResponse,
                                others: seq<WeatherResponse>)
    requires !IsBlank(s.city)
    requires LoadFavoriteWeatherList(st, FavoriteCitiesWeatherFile) == Some([cached] + others)
    requires cached.coord.lat == s.lat && cached.coord.lon == s.lon
    ensures var r := UpdateWeather(s, st, false, current, service, reverse);
      r.state.weather == Some(cached) && r.calls == [] && !r.state.isLoading
  {
    var list := [cached] + others;
    var here := CachedHere(s.lat, s.lon);
    assert here(list[0]);
    assert forall i :: FirstWhere(here, list, i) ==> i == 0;
  }

  /** Online, a place that is not a favourite becomes the last viewed place
      and has its conditions cached, but the favourites file is untouched;
      the next time the screen opens it starts on that place. */
  lemma OnlineViewedPlaceIsRemembered(s: WeatherScreenState, st: Store, current: WeatherService, service: WeatherService,
                                      found: GeoCity, w: WeatherResponse)
    requires !IsBlank(s.city) && s.favorites == []
    requires service(found.lat, found.lon) == Returned(w)
    ensures var r := UpdateWeather(s, st, true, current, service, Returned([found]));
      && LoadPreferenceJson(r.store, LastCityWeatherKey) == Some(found)
      && LoadFavoriteWeatherList(r.store, FavoriteCitiesWeatherFile) == Some([w])
      && LoadFavouriteCities(r.store) == LoadFavouriteCities(st)
      && InitialSelection(r.store) == Selection(found.name, found.lat, found.lon)
  {
    var rec := WorkingList(s.favorites, s.lat, s.lon, Returned([found]));
    assert rec.cities == [found];
    assert FavouritesWeather([found], service) == [w];
  }

  /** Refreshing a chosen favourite online does not geocode and leaves the
      last viewed place as it was. */
  lemma RefreshingFavouriteKeepsLastViewed(s: WeatherScreenState, st: Store, current: WeatherService, service: WeatherService,
                                           reverse: ApiOutcome<seq<GeoCity>>, i: nat)
    requires i < |s.favorites| && !IsBlank(s.city)
    requires s.lat == s.favorites[i].lat && s.lon == s.favorites[i].lon
    ensures var r := UpdateWeather(s, st, true, current, service, reverse);
      && LoadPreferenceJson(r.store, LastCityWeatherKey) == LoadPreferenceJson(st, LastCityWeatherKey)
      && r.state.weatherList == FavouritesWeather(s.favorites, service)
      && r.calls == [FetchWeather(s.lat, s.lon)] + WeatherCalls(s.favorites)
  {
    assert HasCoords(s.favorites, s.lat, s.lon);
    OnlineAtFavourite(s, st, current, service, reverse);
  }

  lemma OnlineAtFavourite(s: WeatherScreenState, st: Store, current: WeatherService, service: WeatherService,
                          reverse: ApiOutcome<seq<GeoCity>>)
    requires HasCoords(s.favorites, s.lat, s.lon)
    ensures var r := UpdateWeatherOnline(s, st, current, service, reverse);
      && LoadPreferenceJson(r.store, LastCityWeatherKey) == LoadPreferenceJson(st, LastCityWeatherKey)
      && r.state.weatherList == FavouritesWeather(s.favorites, service)
      && r.calls == [FetchWeather(s.lat, s.lon)] + WeatherCalls(s.favorites)
  {
    var rec := WorkingList(s.favorites, s.lat, s.lon, reverse);
    assert rec.added.None? && !rec.geocoded && rec.cities == s.favorites;
    assert OnlineCalls(FetchWeather(s.lat, s.lon), s.lat, s.lon, rec, WeatherCalls(s.favorites))
        == [FetchWeather(s.lat, s.lon)] + WeatherCalls(s.favorites);
  }
}

=== FILE: week_days.dfy ===
/** The day selection of `WeekDaysForecast`: keep the entries whose time
    text contains the hour marker, group them by the date prefix in order of
    first appearance, keep the first seven groups, and show each group's
    first entry. */
module WeekDaysForecast {
  import opened Wrappers
  import opened Text
  import opened Api

  /** Length of the "yyyy-MM-dd" prefix a group is keyed by. */
  const DateLength: nat := 10
  /** Most days shown. */
  const MaxDays: nat := 7

  /** `filter { it.dt_txt.contains(marker) }`. */
  function AtHour(entries: seq<ForecastWeather>, marker: string): (r: seq<ForecastWeather>)
    ensures |r| <= |entries|
    ensures forall e :: e in r <==> e in entries && Contains(e.dtTxt, marker)
  {
    if |entries| == 0 then []
    else
      var rest := AtHour(entries[..|entries| - 1], marker);
      var e := entries[|entries| - 1];
      assert entries == entries[..|entries| - 1] + [e];
      if Contains(e.dtTxt, marker) then rest + [e] else rest
  }

  /** The filter works entry by entry: kept entries stay in input order, and
      each is kept exactly as often as it occurs. */
  lemma {:induction false} AtHourAppend(a: seq<ForecastWeather>, b: seq<ForecastWeather>, marker: string)
    ensures AtHour(a + b, marker) == AtHour(a, marker) + AtHour(b, marker)
    ensures |b| == 1 ==> AtHour(b, marker) == if Contains(b[0].dtTxt, marker) then b else []
    decreases |b|
  {
    if |b| > 0 {
      var b' := b[..|b| - 1];
      assert (a + b)[..|a + b| - 1] == a + b';
      assert (a + b)[|a + b| - 1] == b[|b| - 1];
      AtHourAppend(a, b', marker);
      assert b[..0] == [];
    } else {
      assert a + b == a;
    }
  }

  predicate Dated(entries: seq<ForecastWeather>) {
    forall i :: 0 <= i < |entries| ==> |entries[i].dtTxt| >= DateLength
  }

  /** `dt_txt.substring(0, 10)`. */
  function DateOf(e: ForecastWeather): string
    requires |e.dtTxt| >= DateLength
  {
    e.dtTxt[..DateLength]
  }

  /** Reference: the distinct dates, in order of first appearance. */
  function Dates(entries: seq<ForecastWeather>): (r: seq<string>)
    requires Dated(entries)
  {
    if |entries| == 0 then []
    else
      var rest := Dates(entries[..|entries| - 1]);
      var d := DateOf(entries[|entries| - 1]);
      if d in rest then rest else rest + [d]
  }

  /** Reference: the entries of one date, in input order. */
  function OnDate(entries: seq<ForecastWeather>, date: string): (r: seq<ForecastWeather>)
    requires Dated(entries)
  {
    if |entries| == 0 then []
    else
      var rest := OnDate(entries[..|entries| - 1], date);
      var e := entries[|entries| - 1];
      if DateOf(e) == date then rest + [e] else rest
  }

  predicate Distinct(s: seq<string>) {
    forall i, j :: 0 <= i < j < |s| ==> s[i] != s[j]
  }

  /** Dates lists each date of the input exactly once. */
  lemma {:induction false} DatesFacts(entries: seq<ForecastWeather>)
    requires Dated(entries)
    ensures Distinct(Dates(entries))
    ensures forall d :: d in Dates(entries) <==> exists i :: 0 <= i < |entries| && DateOf(entries[i]) == d
  {
    if |entries| > 0 {
      var init := entries[..|entries| - 1];
      DatesFacts(init);
      forall d ensures d in Dates(entries) <==> exists i :: 0 <= i < |entries| && DateOf(entries[i]) == d {
        if d in Dates(init) {
          var i :| 0 <= i < |init| && DateOf(init[i]) == d;
          assert entries[i] == init[i];
        }
        if exists i :: 0 <= i < |entries| && DateOf(entries[i]) == d {
          var i :| 0 <= i < |entries| && DateOf(entries[i]) == d;
          if i < |init| {
            assert init[i] == entries[i];
          }
        }
      }
    }
  }

  /** A date that never occurs has no entries. */
  lemma {:induction false} OnDateAbsent(entries: seq<ForecastWeather>, date: string)
    requires Dated(entries)
    requires forall i :: 0 <= i < |entries| ==> DateOf(entries[i]) != date
    ensures OnDate(entries, date) == []
  {
    if |entries| > 0 {
      OnDateAbsent(entries[..|entries| - 1], date);
    }
  }

  datatype DayGroup = DayGroup(date: string, forecasts: seq<ForecastWeather>)

  /** No group is keyed by `date`. */
  predicate NoGroupOn(groups: seq<DayGroup>, date: string) {
    forall j :: 0 <= j < |groups| ==> groups[j].date != date
  }

  /** `groups[j]` is the first group keyed by `date`. */
  predicate FirstGroupOn(groups: seq<DayGroup>, date: string, j: int) {
    0 <= j < |groups| && groups[j].date == date && forall k :: 0 <= k < j ==> groups[k].date != date
  }

  /** One step of `groupBy` into a LinkedHashMap: append to the entry's date
      group, or open a new group at the end. */
  function AddToGroups(groups: seq<DayGroup>, date: string, e: ForecastWeather): (r: seq<DayGroup>)
    ensures !NoGroupOn(groups, date) ==>
      exists j :: FirstGroupOn(groups, date, j) && r == groups[j := DayGroup(date, groups[j].forecasts + [e])]
    ensures NoGroupOn(groups, date) ==> r == groups + [DayGroup(date, [e])]
  {
    if |groups| == 0 then [DayGroup(date, [e])]
    else if groups[0].date == date then
      var r := [DayGroup(date, groups[0].forecasts + [e])] + groups[1..];
      assert FirstGroupOn(groups, date, 0);
      r
    else
      var tail := groups[1..];
      var rest := AddToGroups(tail, date, e);
      assert forall j :: 1 <= j < |groups| ==> groups[j] == tail[j - 1];
      if NoGroupOn(tail, date) then
        [groups[0]] + rest
      else
        var j' :| FirstGroupOn(tail, date, j') && rest == tail[j' := DayGroup(date, tail[j'].forecasts + [e])];
        assert FirstGroupOn(groups, date, j' + 1);
        assert [groups[0]] + rest == groups[j' + 1 := DayGroup(date, groups[j' + 1].forecasts + [e])];
        [groups[0]] + rest
  }

  /** `groupBy { it.dt_txt.substring(0, 10) }.toList()`. */
  function GroupByDate(entries: seq<ForecastWeather>): seq<DayGroup>
    requires Dated(entries)
  {
    if |entries| == 0 then []
    else
      var e := entries[|entries| - 1];
      AddToGroups(GroupByDate(entries[..|entries| - 1]), DateOf(e), e)
  }

  /** `groups` is the reference grouping of `entries`. */
  predicate GroupsMatch(groups: seq<DayGroup>, entries: seq<ForecastWeather>)
    requires Dated(entries)
  {
    && |groups| == |Dates(entries)|
    && forall i :: 0 <= i < |groups| ==>
         groups[i].date == Dates(entries)[i] && groups[i].forecasts == OnDate(entries, Dates(entries)[i])
  }

  /** The grouping agrees with the reference: one group per distinct date in
      order of first appearance, holding that date's entries in input order. */
  lemma {:induction false} GroupByDateMatchesReference(entries: seq<ForecastWeather>)
    requires Dated(entries)
    ensures |GroupByDate(entries)| == |Dates(entries)|
    ensures forall i :: 0 <= i < |GroupByDate(entries)| ==>
      GroupByDate(entries)[i].date == Dates(entries)[i]
      && GroupByDate(entries)[i].forecasts == OnDate(entries, Dates(entries)[i])
  {
    if |entries| > 0 {
      var init := entries[..|entries| - 1];
      var e := entries[|entries| - 1];
      var d := DateOf(e);
      assert entries == init + [e];
      GroupByDateMatchesReference(init);
      DatesFacts(init);
      var g := GroupByDate(init);
      assert GroupByDate(entries) == AddToGroups(g, d, e);
      if NoGroupOn(g, d) {
        assert forall i :: 0 <= i < |init| ==> DateOf(init[i]) != d by {
          assert d !in Dates(init);
        }
        GroupStepAbsent(init, e, g);
      } else {
        var j :| FirstGroupOn(g, d, j) && GroupByDate(entries) == g[j := DayGroup(d, g[j].forecasts + [e])];
        GroupStepPresent(init, e, g, j);
      }
    }
  }

  /** A grouping step for a date not seen before opens a group at the end. */
  lemma GroupStepAbsent(init: seq<ForecastWeather>, e: ForecastWeather, g: seq<DayGroup>)
    requires Dated(init) && |e.dtTxt| >= DateLength && GroupsMatch(g, init)
    requires forall i :: 0 <= i < |init| ==> DateOf(init[i]) != DateOf(e)
    ensures Dated(init + [e]) && GroupsMatch(g + [DayGroup(DateOf(e), [e])], init + [e])
  {
    var entries, d := init + [e], DateOf(e);
    assert entries[..|entries| - 1] == init;
    OnDateAbsent(init, d);
    DatesFacts(init);
    assert Dates(entries) == Dates(init) + [d];
    forall x ensures OnDate(entries, x) == if x == d then OnDate(init, x) + [e] else OnDate(init, x) {
    }
  }

  /** A grouping step for a date already seen extends that date's group. */
  lemma GroupStepPresent(init: seq<ForecastWeather>, e: ForecastWeather, g: seq<DayGroup>, j: int)
    requires Dated(init) && |e.dtTxt| >= DateLength && GroupsMatch(g, init)
    requires Distinct(Dates(init)) && FirstGroupOn(g, DateOf(e), j)
    ensures Dated(init + [e]) && GroupsMatch(g[j := DayGroup(DateOf(e), g[j].forecasts + [e])], init + [e])
  {
    var entries, d := init + [e], DateOf(e);
    assert entries[..|entries| - 1] == init;
    assert Dates(init)[j] == d;
    assert Dates(entries) == Dates(init);
    forall x ensures OnDate(entries, x) == if x == d then OnDate(init, x) + [e] else OnDate(init, x) {
    }
  }

  /** Dates come out in order of first appearance: an earlier group's date
      first occurs before a later group's. */
  lemma {:induction false} DatesFirstAppearance(entries: seq<ForecastWeather>, a: nat, b: nat)
    requires Dated(entries) && a < b < |Dates(entries)|
    ensures exists i :: 0 <= i < |entries| && DateOf(entries[i]) == Dates(entries)[a]
                        && forall j :: 0 <= j <= i ==> DateOf(entries[j]) != Dates(entries)[b]
  {
    var init := entries[..|entries| - 1];
    var d := DateOf(entries[|entries| - 1]);
    DatesFacts(init);
    if b < |Dates(init)| {
      DatesFirstAppearance(init, a, b);
      var i :| 0 <= i < |init| && DateOf(init[i]) == Dates(init)[a]
               && forall j :: 0 <= j <= i ==> DateOf(init[j]) != Dates(init)[b];
      assert entries[i] == init[i];
      assert forall j :: 0 <= j <= i ==> entries[j] == init[j];
    } else {
      assert Dates(entries)[b] == d && d !in Dates(init);
      assert Dates(entries)[a] in Dates(init);
      var i :| 0 <= i < |init| && DateOf(init[i]) == Dates(init)[a];
      assert entries[i] == init[i];
      forall j | 0 <= j <= i ensures DateOf(entries[j]) != d {
        assert entries[j] == init[j];
      }
    }
  }

  /** A date that occurs has entries, and they are entries of that date. */
  lemma {:induction false} OnDateFacts(entries: seq<ForecastWeather>, date: string)
    requires Dated(entries)
    ensures (exists i :: 0 <= i < |entries| && DateOf(entries[i]) == date) ==> |OnDate(entries, date)| > 0
    ensures forall e :: e in OnDate(entries, date) ==> e in entries && |e.dtTxt| >= DateLength && DateOf(e) == date
  {
    if |entries| > 0 {
      var init := entries[..|entries| - 1];
      OnDateFacts(init, date);
      if exists i :: 0 <= i < |entries| && DateOf(entries[i]) == date {
        var i :| 0 <= i < |entries| && DateOf(entries[i]) == date;
        if i < |init| {
          assert init[i] == entries[i];
        }
      }
    }
  }

  /** `selectedDates`: None stands for the exception `substring(0, 10)`
      throws on a kept entry with a shorter time text. Otherwise the first
      seven dates in order of first appearance, each with all its kept
      entries in input order. */
  function SelectedDates(entries: seq<ForecastWeather>, marker: string): (r: Option<seq<DayGroup>>)
    ensures r.Some? <==> Dated(AtHour(entries, marker))
    ensures r.Some? ==> var kept := AtHour(entries, marker);
      && |r.value| == (if |Dates(kept)| <= MaxDays then |Dates(kept)| else MaxDays)
      && forall i :: 0 <= i < |r.value| ==>
           && r.value[i].date == Dates(kept)[i]
           && r.value[i].forecasts == OnDate(kept, r.value[i].date)
           && |r.value[i].forecasts| > 0
  {
    var kept := AtHour(entries, marker);
    if Dated(kept) then
      var groups := GroupByDate(kept);
      GroupByDateMatchesReference(kept);
      DatesFacts(kept);
      forall i | 0 <= i < |groups| ensures |groups[i].forecasts| > 0 {
        assert Dates(kept)[i] in Dates(kept);
        OnDateFacts(kept, Dates(kept)[i]);
      }
      Some(if |groups| <= MaxDays then groups else groups[..MaxDays])
    else None
  }

  /** The first entry of a selected group is a kept entry of that date. */
  lemma FirstOfGroup(entries: seq<ForecastWeather>, marker: string, g: DayGroup)
    requires Dated(AtHour(entries, marker))
    requires g.forecasts == OnDate(AtHour(entries, marker), g.date) && |g.forecasts| > 0
    ensures g.forecasts[0] in entries && Contains(g.forecasts[0].dtTxt, marker)
    ensures |g.forecasts[0].dtTxt| >= DateLength && g.forecasts[0].dtTxt[..DateLength] == g.date
  {
    var kept := AtHour(entries, marker);
    OnDateFacts(kept, g.date);
    assert g.forecasts[0] in g.forecasts;
  }

  /** What the row shows: each selected date with the first kept entry of
      that date, which carries the hour marker. */
  function ShownDays(entries: seq<ForecastWeather>, marker: string): (r: Option<seq<(string, ForecastWeather)>>)
    ensures r.Some? <==> Dated(AtHour(entries, marker))
    ensures r.Some? ==> var kept := AtHour(entries, marker);
      && |r.value| == (if |Dates(kept)| <= MaxDays then |Dates(kept)| else MaxDays)
      && forall i :: 0 <= i < |r.value| ==>
           && r.value[i].0 == Dates(kept)[i]
           && |OnDate(kept, r.value[i].0)| > 0 && r.value[i].1 == OnDate(kept, r.value[i].0)[0]
           && r.value[i].1 in entries && Contains(r.value[i].1.dtTxt, marker)
           && r.value[i].1.dtTxt[..DateLength] == r.value[i].0
  {
    var selected := SelectedDates(entries, marker);
    if selected.Some? then
      var groups := selected.value;
      var shown := seq(|groups|, i requires 0 <= i < |groups| => (groups[i].date, groups[i].forecasts[0]));
      forall i | 0 <= i < |shown|
        ensures shown[i].1 in entries && Contains(shown[i].1.dtTxt, marker)
                && shown[i].1.dtTxt[..DateLength] == shown[i].0
      {
        FirstOfGroup(entries, marker, groups[i]);
      }
      Some(shown)
    else None
  }

  /** Ten days at the marker hour, in date order, show as the first seven. */
  lemma SevenOfTen(entries: seq<ForecastWeather>, marker: string)
    requires Dated(AtHour(entries, marker)) && |Dates(AtHour(entries, marker))| == 10
    ensures var r := SelectedDates(entries, marker);
      r.Some? && |r.value| == MaxDays
      && forall i :: 0 <= i < MaxDays ==> r.value[i].date == Dates(AtHour(entries, marker))[i]
  {
  }
}

=== FILE: wrappers.dfy ===
/** Optional values: the model's stand-in for Kotlin's nullable types. */
module Wrappers {

  datatype Option<+T> = None | Some(value: T) {

    /** Kotlin's `x ?: default`. */
    function GetOr(default: T): T {
      match this
      case Some(v) => v
      case None => default
    }
  }

  /** The `mapNotNull` / "keep only the non-null results" idiom, as an
      independent reference definition. */
  function FilterMap<X, Y>(f: X -> Option<Y>, xs: seq<X>): (r: seq<Y>)
    ensures |r| <= |xs|
  {
    if |xs| == 0 then []
    else
      var rest := FilterMap(f, xs[..|xs| - 1]);
      match f(xs[|xs| - 1])
      case Some(y) => rest + [y]
      case None => rest
  }

  /** Every result of FilterMap is the value of some input, and every
      non-null value of an input is among the results. */
  lemma {:induction false} FilterMapMembers<X, Y>(f: X -> Option<Y>, xs: seq<X>, y: Y)
    ensures y in FilterMap(f, xs) <==> exists i :: 0 <= i < |xs| && f(xs[i]) == Some(y)
  {
    if |xs| > 0 {
      var init := xs[..|xs| - 1];
      FilterMapMembers(f, init, y);
      if y in FilterMap(f, init) {
        var i :| 0 <= i < |init| && f(init[i]) == Some(y);
        assert xs[i] == init[i];
      }
      if exists i :: 0 <= i < |xs| && f(xs[i]) == Some(y) {
        var i :| 0 <= i < |xs| && f(xs[i]) == Some(y);
        if i < |init| {
          assert init[i] == xs[i];
        }
      }
    }
  }

  /** FilterMap distributes over concatenation, so it keeps input order. */
  lemma {:induction false} FilterMapAppend<X, Y>(f: X -> Option<Y>, xs: seq<X>, ys: seq<X>)
    ensures FilterMap(f, xs + ys) == FilterMap(f, xs) + FilterMap(f, ys)
    decreases |ys|
  {
    if |ys| > 0 {
      var ys' := ys[..|ys| - 1];
      assert (xs + ys)[..|xs + ys| - 1] == xs + ys';
      assert (xs + ys)[|xs + ys| - 1] == ys[|ys| - 1];
      FilterMapAppend(f, xs, ys');
    } else {
      assert xs + ys == xs;
    }
  }

  /** When every input yields a value, FilterMap is a plain map. */
  lemma {:induction false} FilterMapAllPresent<X, Y>(f: X -> Option<Y>, xs: seq<X>)
    requires forall i :: 0 <= i < |xs| ==> f(xs[i]).Some?
    ensures |FilterMap(f, xs)| == |xs|
    ensures forall i :: 0 <= i < |xs| ==> FilterMap(f, xs)[i] == f(xs[i]).value
  {
    if |xs| > 0 {
      var init := xs[..|xs| - 1];
      FilterMapAllPresent(f, init);
    }
  }

  /** No element of `xs` satisfies `p`. */
  predicate NoneWhere<X>(p: X -> bool, xs: seq<X>) {
    forall i :: 0 <= i < |xs| ==> !p(xs[i])
  }

  /** `xs[i]` is the first element of `xs` that satisfies `p`. */
  predicate FirstWhere<X>(p: X -> bool, xs: seq<X>, i: int) {
    0 <= i < |xs| && p(xs[i]) && forall j :: 0 <= j < i ==> !p(xs[j])
  }

  /** The first element satisfying `p`, as Kotlin's `find`. */
  function Find<X>(p: X -> bool, xs: seq<X>): (r: Option<X>)
    ensures r.None? <==> NoneWhere(p, xs)
    ensures r.Some? ==> exists i :: FirstWhere(p, xs, i) && xs[i] == r.value
  {
    if |xs| == 0 then None
    else if p(xs[0]) then Some(xs[0])
    else
      var r := Find(p, xs[1..]);
      assert forall i :: 1 <= i < |xs| ==> xs[i] == xs[1..][i - 1];
      assert r.Some? ==> exists i :: FirstWhere(p, xs[1..], i) && xs[1..][i] == r.value;
      assert forall i :: FirstWhere(p, xs[1..], i) ==> FirstWhere(p, xs, i + 1);
      r
  }
}
